=== FILE: README.md ===
# Contest platform front-end: the decision logic of its pages

This project models the small pure computations inside the page components
of a contest-hosting React front-end, and proves what they promise. Users
browse contests, register, submit task links and see a leaderboard. Creators
and admins approve, edit and judge contests. Everything else in those pages is
fetching and rendering.

The model covers:

- **Leaderboard** (`LeaderBoard`). Confirmed contests with a winner email are
  grouped by that email. Wins are counted, a leader record is built with name
  and photo fallbacks, and the leaders are sorted by wins with a stable sort.
- **Contest details** (`ContestDetails`). One tick of the countdown splits the
  remaining milliseconds into days, hours, minutes and seconds, or reports
  "Contest Ended". The register handler and its button are gated on that text.
  The task modal refuses a blank submission.
- **Admin dashboard** (`DashBoardAdmin`). Role change by user id; confirm,
  reject or delete a contest by id; the rule for which action buttons a row
  shows.
- **Role redirect and route guard** (`RoleRedirect`, `PrivetRoute`). Where a
  visitor is sent, and whether a guarded route waits, renders or redirects.
- **All contests** (`AllContests`). The type tabs, the contests of the active
  tab, the login-gated Details button and the 80-character preview.
- **Submissions** (`SeeSubmissions`). The declare-winner guard and its
  payload, the champion row, the Declare button state and the ranks.
- **Edit contest** (`EditContest`). The form prefilled from the stored
  contest, the field rules and their messages, the PATCH payload, and the
  rule that only pending contests can be edited.

Shared modules:

- `Values`: optional values, JavaScript truthiness and `||` with a fallback.
- `Text`: `trim`, `startsWith`, `split(sep)[0]`, `slice(0, n)` and decimal
  rendering.
- `Seqs`: `filter`, `find`, `new Set(...)` with their facts.
- `Records`: the contest, winner, submission and user records.

The clock, the signed-in user, the fetched data and the answer of a
confirmation dialog are parameters. Toasts and alerts are output values.

Two rules one would expect of these pages are not what the code does. The
model follows the code in both:

- A contest with a winner set should also close registration. The code gates
  the Register / Pay button and its handler only on the countdown text
  (`src/pages/ContestDetails.jsx:53`, `:117`).
- Submit Task should be enabled only while the visitor is registered and the
  contest has not ended. The code never disables that button
  (`src/pages/ContestDetails.jsx:125-130`).

## Model

| member | source | states |
|---|---|---|
| Text.Trim | src/pages/ContestDetails.jsx:63 | `trim` drops exactly the leading and trailing whitespace; the result is empty exactly when the text is all whitespace |
| Text.BeforeFirst | src/pages/LeaderBoard.jsx:44 | `split("@")[0]` is the longest prefix without the separator, and the separator follows it when it is shorter than the input |
| Text.Prefix | src/pages/AllContests.jsx:81 | `slice(0, n)` is a prefix of length min(n, length) |
| Text.NatToString | src/pages/ContestDetails.jsx:44 | a number in a template literal is digits without leading zeros that read back as the number |
| Seqs.Filter | src/pages/AllContests.jsx:26 | `filter` keeps exactly the elements passing the test, each as often as in the input, in their original order |
| Seqs.FilterConcat | src/pages/DashBoardAdmin.jsx:97 | filtering a concatenation filters each part |
| Seqs.FilterTwice | src/pages/DashBoardAdmin.jsx:97 | filtering twice with the same test equals filtering once |
| Seqs.Find | src/pages/LeaderBoard.jsx:38-40 | `find` returns the first passing element, and nothing exactly when none passes |
| Seqs.Dedup | src/pages/AllContests.jsx:20 | `[...new Set(s)]` holds every value once, in order of first appearance |
| Seqs.CountAllCovers | src/pages/LeaderBoard.jsx:28-32 | counting each distinct value's occurrences accounts for every element exactly once |
| LeaderBoard.Leaderboard | src/pages/LeaderBoard.jsx:18-53 | the whole `fetchLeaders` pipeline: empty exactly when no contest qualifies; otherwise sorted by wins, with unique emails, and wins adding up to the number of qualifying contests |
| LeaderBoard.MakeLeader | src/pages/LeaderBoard.jsx:36-49 | the leader keeps its email and count; its name and photo follow the fallbacks on the first contest that email won, and without one the name is the part before "@" (else "Unknown") and the photo the placeholder |
| LeaderBoard.Emails | src/pages/LeaderBoard.jsx:30 | one winner email per winning contest, in order |
| LeaderBoard.CountWins | src/pages/LeaderBoard.jsx:28-32 | the `winCount` object has a key for exactly the emails that occur, holding their number of occurrences |
| LeaderBoard.Tally | src/pages/LeaderBoard.jsx:35-50 | one leader per key, in key order, carrying that key's count |
| LeaderBoard.TallyAt | src/pages/LeaderBoard.jsx:36-49 | each leader is the record built for its email from the first contest it won |
| LeaderBoard.Insert | src/pages/LeaderBoard.jsx:51 | one insertion step is a permutation adding exactly the new leader |
| LeaderBoard.InsertSorted | src/pages/LeaderBoard.jsx:51 | inserting into a list sorted by wins keeps it sorted |
| LeaderBoard.SortByWins | src/pages/LeaderBoard.jsx:51 | the sort is a permutation ordered by wins, most first |
| LeaderBoard.InsertSum | src/pages/LeaderBoard.jsx:51 | insertion adds the new leader's wins to the total |
| LeaderBoard.SortSum | src/pages/LeaderBoard.jsx:51 | sorting keeps the total of wins |
| LeaderBoard.InsertUnique | src/pages/LeaderBoard.jsx:51 | inserting a new email keeps emails unique |
| LeaderBoard.SortUnique | src/pages/LeaderBoard.jsx:51 | sorting keeps emails unique |
| LeaderBoard.TallySum | src/pages/LeaderBoard.jsx:28-36 | the wins of the built leaders add up to the counted occurrences of their emails |
| LeaderBoard.TallyMembers | src/pages/LeaderBoard.jsx:35-51 | every sorted leader has an email that won, with its count of wins |
| LeaderBoard.TallyCovers | src/pages/LeaderBoard.jsx:35-51 | every winning email has a sorted leader |
| LeaderBoard.WinsOfCount | src/pages/LeaderBoard.jsx:18-32 | the count of an email equals the reference count of qualifying contests it won |
| LeaderBoard.Rank | src/pages/LeaderBoard.jsx:27-51 | the leaders are sorted, have unique emails, are exactly the winning emails with their counts, and their wins add up to the number of winning contests |
| LeaderBoard.WinningEmails | src/pages/LeaderBoard.jsx:18-20 | an email occurs among the winning contests exactly when it won a confirmed contest with a non-empty winner email |
| LeaderBoard.LeaderboardOnlyQualifying | src/pages/LeaderBoard.jsx:17-20 | contests that are not confirmed or have no winner email do not affect the leaderboard |
| LeaderBoard.LeaderboardEmpty | src/pages/LeaderBoard.jsx:22-25 | the leaderboard is empty exactly when no contest qualifies |
| LeaderBoard.LeaderboardEmails | src/pages/LeaderBoard.jsx:28-36 | the leaders' emails are exactly the qualifying winners' emails, each once |
| LeaderBoard.LeaderboardWins | src/pages/LeaderBoard.jsx:29-32 | a leader's wins equal the number of qualifying contests that email won, so at least one |
| LeaderBoard.LeaderboardTotal | src/pages/LeaderBoard.jsx:28-32 | the wins add up to the number of qualifying contests |
| LeaderBoard.LeaderboardSorted | src/pages/LeaderBoard.jsx:51 | leaders are ordered by wins, most first |
| LeaderBoard.LeaderboardProfile | src/pages/LeaderBoard.jsx:38-47 | name: the first winning contest's winner name, else the email before "@", else "Unknown"; photo: that winner's photo, else the placeholder |
| LeaderBoard.RankedProfile | src/pages/LeaderBoard.jsx:38-47 | a ranked leader's name and photo come from the first contest its email won |
| LeaderBoard.RankedLeader | src/pages/LeaderBoard.jsx:35-50 | each ranked leader is the record built for its own email and count |
| LeaderBoard.SampleIsFirstWin | src/pages/LeaderBoard.jsx:38-40 | the sample contest is the first winning contest of that email |
| ContestDetails.Split | src/pages/ContestDetails.jsx:39-42 | days = diff div one day; hours < 24, minutes < 60, seconds < 60; the parts add up to at most diff, and to less than a second below it |
| ContestDetails.SplitMillis | src/pages/ContestDetails.jsx:39-42 | any normal span plus less than a second splits back into the same span |
| ContestDetails.Render | src/pages/ContestDetails.jsx:44 | the countdown text is four digit runs reading back as the days, hours, minutes and seconds, each followed by its unit letter, with "d ", "h ", "m " and a final "s" |
| ContestDetails.RenderNotEnded | src/pages/ContestDetails.jsx:44 | the countdown text starts with a digit, so it never reads "Contest Ended" |
| ContestDetails.CountdownTick | src/pages/ContestDetails.jsx:31-44 | the interval stops and shows "Contest Ended" exactly when diff <= 0; otherwise it shows the rendered split of diff |
| ContestDetails.HandleRegister | src/pages/ContestDetails.jsx:52-56 | navigates to `/payment/{id}` exactly when the text is not "Contest Ended" |
| ContestDetails.RegisterDisabled | src/pages/ContestDetails.jsx:117 | the Register / Pay button is disabled exactly when the register handler would do nothing for any contest |
| ContestDetails.RegisterGate | src/pages/ContestDetails.jsx:52-56 | registration is open before the first tick; after a tick it is closed exactly when the deadline has passed; the button is disabled exactly when the handler does nothing |
| ContestDetails.OpenTaskSubmit | src/pages/ContestDetails.jsx:58-60 | the modal opens whatever the countdown says |
| ContestDetails.SubmitTask | src/pages/ContestDetails.jsx:62-70 | blank text after trimming gives the error toast and leaves the modal unchanged; otherwise the success toast, a closed modal and cleared text |
| ContestDetails.OpenThenSubmit | src/pages/ContestDetails.jsx:58-70 | once opened, the modal closes on submission exactly when the text is not blank; blank text keeps it open with the text |
| ContestDetails.SubmitTwice | src/pages/ContestDetails.jsx:62-70 | submitting right after a success is refused and changes nothing |
| DashBoardAdmin.SetRole | src/pages/DashBoardAdmin.jsx:90 | users with the id get the new role; every other user and field is unchanged; length is kept |
| DashBoardAdmin.HandleRoleChange | src/pages/DashBoardAdmin.jsx:89-92 | the field-wise role update and the alert text |
| DashBoardAdmin.RoleChangeLastWins | src/pages/DashBoardAdmin.jsx:90 | two role changes for one user keep the second; repeating one changes nothing |
| DashBoardAdmin.RoleChangesCommute | src/pages/DashBoardAdmin.jsx:90 | role changes for different users commute |
| DashBoardAdmin.DeleteContest | src/pages/DashBoardAdmin.jsx:97 | exactly the contests with another id remain, each as often as before, in their original order |
| DashBoardAdmin.DeleteTwice | src/pages/DashBoardAdmin.jsx:97 | deleting again changes nothing |
| DashBoardAdmin.SetStatus | src/pages/DashBoardAdmin.jsx:100-106 | matching contests get the status; nothing else changes |
| DashBoardAdmin.HandleContestAction | src/pages/DashBoardAdmin.jsx:95-109 | "delete" removes the id and keeps every other contest as often as before, in order; "confirm" gives "Confirmed"; any other action gives "Rejected"; other contests and fields are untouched; the alert matches the action |
| DashBoardAdmin.ContestActionIdempotent | src/pages/DashBoardAdmin.jsx:95-109 | applying an action twice equals applying it once |
| DashBoardAdmin.OfferedActions | src/pages/DashBoardAdmin.jsx:222-247 | Confirm and Reject are offered exactly for pending contests; Delete always |
| DashBoardAdmin.OfferedActionDecides | src/pages/DashBoardAdmin.jsx:222-247 | an offered action leaves that contest deleted, confirmed or rejected |
| RoleRedirect.DashboardFor | src/pages/RoleRedirect.jsx:10-13 | Admin goes to the admin dashboard, Creator to the creator dashboard, and any other or absent role to the user dashboard |
| RoleRedirect.Destination | src/pages/RoleRedirect.jsx:5-14 | "/login" exactly when there is no user; otherwise the role's dashboard |
| RoleRedirect.DestinationByRole | src/pages/RoleRedirect.jsx:10-13 | the destination depends on the role only and tells Admin and Creator apart |
| PrivetRoute.Decide | src/routes/PrivetRoute.jsx:6-37 | loading shows the loading view; no user goes to "/login" carrying the path; renders exactly for a user when no roles are listed or their role is listed; any other redirect goes to the role redirect's destination, never "/login" |
| PrivetRoute.RedirectAgreesWithRoleRedirect | src/routes/PrivetRoute.jsx:26-33 | the guard's redirect equals the role redirect's destination |
| PrivetRoute.MoreRolesStillRender | src/routes/PrivetRoute.jsx:19-24 | listing more roles on a route that lists some keeps admitted users admitted |
| AllContests.Types | src/pages/AllContests.jsx:20 | one content type per contest, in order |
| AllContests.Tabs | src/pages/AllContests.jsx:20 | "All" first, then each contest type once, in order of first appearance; every contest's type is among them and nothing else is |
| AllContests.OfType | src/pages/AllContests.jsx:26 | exactly the contests of the type, each as often as in the list, in original order |
| AllContests.Filtered | src/pages/AllContests.jsx:23-26 | the "All" tab lists every contest; another tab lists exactly that type's contests, each as often as in the list, in order |
| AllContests.OfTypeCount | src/pages/AllContests.jsx:26 | a type tab holds as many contests as have that type |
| AllContests.TabTotalCount | src/pages/AllContests.jsx:20-26 | the tab sizes add up to the counted occurrences of their types |
| AllContests.TypeTabsPartition | src/pages/AllContests.jsx:20-26 | the type tabs together list every contest exactly once |
| AllContests.AllTypeShadowed | src/pages/AllContests.jsx:20-25 | a contest typed "All" adds a second "All" tab that also lists every contest |
| AllContests.HandleDetails | src/pages/AllContests.jsx:31-37 | "/login" exactly without a user, else `/contest/{id}` |
| AllContests.PageDetails | src/pages/AllContests.jsx:29-37 | with the page's constant null user, Details always leads to "/login" |
| AllContests.Preview | src/pages/AllContests.jsx:81 | the first min(80, length) characters of the description followed by "..." |
| AllContests.PreviewDecides | src/pages/AllContests.jsx:81 | two cards show the same preview exactly when their descriptions agree on the first 80 characters; a short description is shown whole |
| AllContests.DetailsAgreesWithGuard | src/pages/AllContests.jsx:31-37 | an anonymous visitor is sent to "/login" by Details, by the role redirect and by the route guard alike; a signed-in visitor's contest page is rendered by a guard listing no roles |
| SeeSubmissions.HasWinner | src/pages/SeeSubmisson.jsx:48 | `contest?.winner`: a contest not yet loaded has no winner; one the backend has recorded a declaration on has one |
| SeeSubmissions.DeclareWinner | src/pages/SeeSubmisson.jsx:47-80 | no request when a winner is recorded or the dialog is cancelled; otherwise the payload names the submitter, with "Unknown" and "" fallbacks |
| SeeSubmissions.IsWinnerAsWritten | src/pages/SeeSubmisson.jsx:159 | `winnerEmail === userEmail`: a submission with a real email is crowned exactly when it equals the recorded winner email; without a recorded winner email only email-less submissions can be crowned |
| SeeSubmissions.EmailLessSubmissionCrowned | src/pages/SeeSubmisson.jsx:159 | as written, a submission without an email is the champion of a contest without a winner email |
| SeeSubmissions.IsWinnerCorrected | src/pages/SeeSubmisson.jsx:159 | the corrected champion rule agrees with the code once a winner email exists and crowns no one before |
| SeeSubmissions.MakeRow | src/pages/SeeSubmisson.jsx:158-225 | rank is position + 1; the submission's email is shown; champion exactly under the corrected rule (a recorded winner email equal to the row's); Declare is enabled exactly while no winner email is recorded; name and avatar fallbacks |
| SeeSubmissions.MakeRowAsWritten | src/pages/SeeSubmisson.jsx:158-225 | the row as the page builds it, showing the submission's email: champion exactly when `winnerEmail === userEmail`; Declare enabled exactly while no winner email is recorded and the row is not crowned |
| SeeSubmissions.MakeRowAsWrittenAgrees | src/pages/SeeSubmisson.jsx:159-218 | with a winner email recorded the page's rows are the corrected rows; before that they differ exactly on rows whose email equals the missing or empty winner email |
| SeeSubmissions.EmailLessRowDiffers | src/pages/SeeSubmisson.jsx:159 | an email-less submission with no winner email, and an empty email with an empty winner email, are crowned by the page and not by the corrected rule |
| SeeSubmissions.RowsFrom | src/pages/SeeSubmisson.jsx:158-170 | one row per submission, ranked from the starting position |
| SeeSubmissions.Rows | src/pages/SeeSubmisson.jsx:158-225 | one row per submission, ranked from 1 and showing its email, each built by `MakeRow` for its submission and position |
| SeeSubmissions.DecidedTableIsClosed | src/pages/SeeSubmisson.jsx:209-215 | once a winner email is recorded no Declare button is enabled, and the champion rows are exactly that email's |
| SeeSubmissions.DeclarationSettles | src/pages/SeeSubmisson.jsx:47-90 | after the backend records a declaration, that row is the champion, all Declare buttons are disabled and declaring again is refused |
| EditContest.Prefill | src/pages/EditContest.jsx:38-46 | `bannerImage`, `entryFee`, `taskDetails` and `contentType` fill `image`, `price`, `taskInstruction` and `contestType`; the other fields keep their names |
| EditContest.PrependField | src/pages/EditContest.jsx:122-229 | an earlier field's error in front of later fields' errors keeps the errors in field order |
| EditContest.Required | src/pages/EditContest.jsx:122 | a required text field fails exactly when empty, with its message |
| EditContest.ImageRule | src/pages/EditContest.jsx:137-140 | the banner URL passes exactly when it starts with "https://"; empty gives the required message, otherwise the HTTPS message |
| EditContest.PriceRule | src/pages/EditContest.jsx:174-177 | the fee passes exactly when present and at least 100 |
| EditContest.PrizeRule | src/pages/EditContest.jsx:192 | the prize passes exactly when present |
| EditContest.RuleFor | src/pages/EditContest.jsx:122-229 | the rule registered on each field yields at most one error, and only for that field |
| EditContest.ErrorsFor | src/pages/EditContest.jsx:122-229 | the errors of a list of fields: each is its field's failing rule, each failing rule shows its error, none exactly when all pass, and in field order when the fields are |
| EditContest.RulesOfForm | src/pages/EditContest.jsx:122-229 | the form lists every field once, in form order, and is acceptable exactly when every field's rule passes |
| EditContest.Validate | src/pages/EditContest.jsx:122-229 | no errors exactly when the form is acceptable; every error shown is its field's failing rule with that rule's message, every failing rule's error is shown, at most one per field, in form order |
| EditContest.Submit | src/pages/EditContest.jsx:60-84 | invalid forms show their errors; a valid form without a deadline fails with "Failed to update"; otherwise the payload carries the form values |
| EditContest.EditView | src/pages/EditContest.jsx:86-102 | the editor, prefilled, exactly for a loaded pending contest; otherwise the not-editable message |
| EditContest.Stored | src/pages/EditContest.jsx:62-71 | applying a payload keeps the contest's id, status and winner |
| EditContest.PrefillRoundTrip | src/pages/EditContest.jsx:39-71 | submitting the prefilled form unchanged sends the stored values under the form's names, and storing them gives back the contest |
| EditContest.EditorRoundTrip | src/pages/EditContest.jsx:39-102 | the editor opens exactly for a pending contest; sending its acceptable prefilled form unchanged leaves the stored contest as it was |
| EditContest.SentFormRoundTrip | src/pages/EditContest.jsx:39-71 | storing a sent payload and prefilling again gives the same form |

## Findings

| source | as written | input that shows it | evidently intended | confidence | as-written member | corrected member |
|---|---|---|---|---|---|---|
| src/pages/SeeSubmisson.jsx:159 | `isWinner` is `contest?.winnerEmail === s.userEmail` | a contest whose `winnerEmail` field is absent and a submission whose `userEmail` is absent: both are `undefined`, so the row shows "Champion" and no Declare button | a row is the champion only when a winner email is recorded and equals the submission's email | medium, not executed: it needs a stored submission without an email | SeeSubmissions.EmailLessSubmissionCrowned | SeeSubmissions.IsWinnerCorrected |

The rest of the model (`MakeRow`, `Rows`, `DecidedTableIsClosed`) uses the
corrected rule `IsWinner`. The table exactly as the page builds it is
`MakeRowAsWritten`, and `MakeRowAsWrittenAgrees` states where the two differ.

## Left out

- Network I/O is not modelled: the GET, POST and PATCH calls, their failures and the retry-free error toasts. Fetched data are inputs. The backend that records a winner or applies an edit is stood in for by `SeeSubmissions.Recorded` and `EditContest.Stored`.
- Authentication is not part of this model (the provider, login, registration and image upload). The signed-in user is a parameter.
- SweetAlert dialogs are not run: a confirmation dialog's answer is a boolean, and toasts and alerts are returned values.
- `setInterval`, `clearInterval` and React state are not modelled. One tick is a function of integer `deadline` and `now`; "running" says whether the interval is cleared.
- Date parsing and formatting are left out (`new Date(...)`, `toISOString`). Timestamps are integers. An unparsable deadline, which would make the countdown read "NaNd NaNh NaNm NaNs", is not modelled.
- ContestDetails.Split: models the floating-point `Math.floor` expressions as integer division, which agrees with them for the positive integer differences the tick computes.
- The win percentage of the user dashboard is left out: it is floating point with `toFixed`.
- Leader order among equal win counts is not claimed beyond what the stable sort gives from first-appearance order. `Object.entries` lists integer-like keys first, which the model does not reproduce; such keys cannot be email addresses containing "@", but an email without "@" could be one.
- A winner email such as `__proto__`, which would misbehave as an object key, is not modelled.
- Strings are sequences of code points. The UTF-16 length used by `slice(0, 80)` differs for characters outside the Basic Multilingual Plane, which the model does not reproduce.
- EditContest.Validate: only the rules registered with the form library are modelled. The browser's own `type="url"` and `min="100"` checks, which may block submission first, are left out.
- EditContest.Submit: number fields are whole numbers, so `Number(...)` on decimal or non-numeric text is not modelled. A present value counts as filled even when it is 0. The library's treatment of `NaN` is left out.
- The `contestType` select's option list is not enforced. Any non-empty type passes the required rule, as it does in the code.
- SeeSubmissions.MakeRow: follows the corrected champion rule, so for a contest without a truthy winner email it enables Declare on rows the page crowns; the page's own rows are `SeeSubmissions.MakeRowAsWritten`.
- SeeSubmissions.IsWinnerAsWritten: an absent field and a stored `null` are both `None`, while `===` tells `null` and `undefined` apart. A contest whose `winnerEmail` is stored as `null`, with a submission whose `userEmail` is absent, is not crowned by the page but is by this predicate. The as-written lemmas are stated for absent fields.
- AllContests.Preview: an absent text field of a contest reads as "". A contest without a `description` field makes `slice` throw a TypeError and the page fails to render; the model shows "..." instead.
- AllContests.Tabs: a contest without a `contentType` field gives an `undefined` tab, distinct from a "" tab; the model reads both as "".
- The wording of the confirmation dialogs and the colours and badges of rows are presentation and are left out.

=== FILE: all_contests.dfy ===
/** The all-contests page: one tab per contest type, the contests of the active
    tab, the short description on each card and the login-gated Details button. */
module AllContests {
  import opened Values
  import opened Text
  import opened Seqs
  import opened Records
  import RoleRedirect
  import PrivetRoute

  /** The tab that shows every contest. */
  const AllTab := "All"

  /** `contests.map(c => c.contentType)`. */
  function Types(cs: seq<Contest>): (ts: seq<string>)
    ensures |ts| == |cs|
    ensures forall i :: 0 <= i < |cs| ==> ts[i] == cs[i].contentType
  {
    if cs == [] then [] else [cs[0].contentType] + Types(cs[1..])
  }

  /** `["All", ...new Set(types)]`: "All" first, then every contest type once,
      in order of first appearance. */
  function Tabs(cs: seq<Contest>): (tabs: seq<string>)
    ensures |tabs| >= 1 && tabs[0] == AllTab
    ensures forall i :: 0 <= i < |cs| ==> cs[i].contentType in tabs[1..]
    ensures forall t :: t in tabs[1..] ==> exists i :: 0 <= i < |cs| && cs[i].contentType == t
    ensures Distinct(tabs[1..])
    ensures forall t :: t in tabs[1..] <==> t in Types(cs)
    ensures forall i, j :: 1 <= i < j < |tabs| ==> IndexOf(Types(cs), tabs[i]) < IndexOf(Types(cs), tabs[j])
  {
    var ts := Types(cs);
    var d := Dedup(ts);
    var tabs := [AllTab] + d;
    assert tabs[1..] == d;
    TypesOccur(cs);
    forall i, j | 1 <= i < j < |tabs| ensures IndexOf(ts, tabs[i]) < IndexOf(ts, tabs[j]) {
      assert tabs[i] == d[i - 1] && tabs[j] == d[j - 1];
    }
    tabs
  }

  /** Each contest's type occurs among the types, and each type is some
      contest's. */
  lemma TypesOccur(cs: seq<Contest>)
    ensures forall i :: 0 <= i < |cs| ==> cs[i].contentType in Types(cs)
    ensures forall t :: t in Types(cs) ==> exists i :: 0 <= i < |cs| && cs[i].contentType == t
  {
    var ts := Types(cs);
    assert forall i :: 0 <= i < |cs| ==> ts[i] in ts;
    forall t | t in ts ensures exists i :: 0 <= i < |cs| && cs[i].contentType == t {
      var i :| 0 <= i < |ts| && ts[i] == t;
    }
  }

  /** The contests of one content type, in their original order. */
  function OfType(cs: seq<Contest>, t: string): (r: seq<Contest>)
    ensures |r| <= |cs|
    ensures forall c :: c in r <==> c in cs && c.contentType == t
    ensures forall c :: multiset(r)[c] == if c.contentType == t then multiset(cs)[c] else 0
    ensures IsSubsequence(r, cs)
  {
    Filter(cs, (c: Contest) => c.contentType == t)
  }

  /** `filteredContests`: every contest on the "All" tab, otherwise the
      contests of the active type. */
  function Filtered(cs: seq<Contest>, activeTab: string): (r: seq<Contest>)
    ensures activeTab == AllTab ==> r == cs
    ensures activeTab != AllTab ==>
      && |r| <= |cs| && IsSubsequence(r, cs)
      && (forall c :: c in r <==> c in cs && c.contentType == activeTab)
      && forall c :: multiset(r)[c] == if c.contentType == activeTab then multiset(cs)[c] else 0
  {
    if activeTab == AllTab then cs else OfType(cs, activeTab)
  }

  /** A type tab holds as many contests as there are of that type. */
  lemma {:induction false} OfTypeCount(cs: seq<Contest>, t: string)
    ensures |OfType(cs, t)| == multiset(Types(cs))[t]
  {
    if cs != [] {
      var p := (c: Contest) => c.contentType == t;
      assert cs == [cs[0]] + cs[1..];
      FilterConcat([cs[0]], cs[1..], p);
      OfTypeCount(cs[1..], t);
      assert Types(cs) == [cs[0].contentType] + Types(cs[1..]);
    }
  }

  /** Total number of contests listed over the type tabs `tabs`. */
  function TabTotal(cs: seq<Contest>, tabs: seq<string>): nat
  {
    if tabs == [] then 0 else |OfType(cs, tabs[0])| + TabTotal(cs, tabs[1..])
  }

  lemma {:induction false} TabTotalCount(cs: seq<Contest>, tabs: seq<string>)
    ensures TabTotal(cs, tabs) == CountAll(tabs, Types(cs))
  {
    if tabs != [] {
      OfTypeCount(cs, tabs[0]);
      TabTotalCount(cs, tabs[1..]);
    }
  }

  /** Every contest sits on exactly one type tab: the type tabs together list
      as many contests as there are. */
  lemma TypeTabsPartition(cs: seq<Contest>)
    ensures TabTotal(cs, Tabs(cs)[1..]) == |cs|
  {
    var ts := Types(cs);
    assert Tabs(cs)[1..] == Dedup(ts);
    TabTotalCount(cs, Dedup(ts));
    CountAllCovers(Dedup(ts), ts);
  }

  /** A contest whose type is literally "All" adds a second "All" tab, and
      that tab too shows every contest rather than the contests of that type. */
  lemma AllTypeShadowed(cs: seq<Contest>, i: nat)
    requires i < |cs| && cs[i].contentType == AllTab
    ensures AllTab in Tabs(cs)[1..]
    ensures Filtered(cs, AllTab) == cs
  {
  }

  /** `handleDetails(id)`: the login page without a user, else the contest page. */
  function HandleDetails(user: Option<AuthUser>, id: string): (to: string)
    ensures user.None? <==> to == "/login"
    ensures user.Some? ==> StartsWith(to, "/contest/") && to[|"/contest/"|..] == id
  {
    if user.None? then "/login" else "/contest/" + id
  }

  /** The page's user is the constant `null`, so Details always leads to the
      login page. */
  function PageDetails(id: string): (to: string)
    ensures to == "/login"
  {
    HandleDetails(None, id)
  }

  /** `description.slice(0, 80)` followed by "...", as each card shows it. */
  function Preview(description: string): (p: string)
    ensures 3 <= |p| <= 83 && |p| - 3 <= |description|
    ensures p[..|p| - 3] == description[..|p| - 3] && p[|p| - 3..] == "..."
    ensures |description| >= 80 <==> |p| == 83
    ensures |p| == (if |description| < 80 then |description| else 80) + 3
  {
    Prefix(description, 80) + "..."
  }

  /** Two cards show the same preview exactly when their descriptions agree
      on the first 80 characters; a description of at most 80 characters is
      shown whole. */
  lemma PreviewDecides(a: string, b: string)
    ensures Preview(a) == Preview(b) <==> Prefix(a, 80) == Prefix(b, 80)
    ensures |a| <= 80 ==> Preview(a) == a + "..."
  {
    var pa, pb := Preview(a), Preview(b);
    assert pa[..|pa| - 3] == Prefix(a, 80);
    assert pb[..|pb| - 3] == Prefix(b, 80);
  }

  /** The Details button and the route guard agree on an anonymous visitor:
      both send them to the login page. A signed-in visitor reaches the
      contest page, which a guard listing no roles renders. */
  lemma DetailsAgreesWithGuard(user: Option<AuthUser>, id: string, allowedRoles: seq<string>)
    ensures user.None? ==>
      && HandleDetails(user, id) == RoleRedirect.Destination(user)
      && HandleDetails(user, id) == PrivetRoute.Decide(false, user, "/contest/" + id, allowedRoles).to
    ensures user.Some? ==> PrivetRoute.Decide(false, user, HandleDetails(user, id), []) == PrivetRoute.Render
  {
  }
}

=== FILE: contest_details.dfy ===
/** The contest details page: the once-a-second countdown to the deadline, the
    register button it gates, and the task-submission modal. Times are integer
    milliseconds; the clock reading `now` is a parameter. */
module ContestDetails {
  import opened Values
  import opened Text

  /** Milliseconds per second, minute, hour and day. */
  const Second := 1000
  const Minute := 60_000
  const Hour := 3_600_000
  const Day := 86_400_000

  /** The countdown text once the deadline has passed. */
  const Ended := "Contest Ended"

  /** A positive time span broken into calendar units. */
  datatype Remaining = Remaining(days: nat, hours: nat, minutes: nat, seconds: nat)

  /** The whole milliseconds `r` stands for. */
  function Millis(r: Remaining): nat
  {
    r.days * Day + r.hours * Hour + r.minutes * Minute + r.seconds * Second
  }

  /** Each unit below days stays under the size of the next one. */
  predicate Normal(r: Remaining)
  {
    r.hours < 24 && r.minutes < 60 && r.seconds < 60
  }

  /** The four `Math.floor` expressions of the tick. For a positive integer
      `diff`, flooring the real quotient and then taking the remainder equals
      integer division followed by `%`. The result is the largest whole-second
      span not exceeding `diff`. */
  function Split(diff: int): (r: Remaining)
    requires diff > 0
    ensures Normal(r)
    ensures r.days == diff / Day
    ensures Millis(r) <= diff < Millis(r) + Second
  {
    var s := diff / Second;
    var m := s / 60;
    var h := m / 60;
    assert diff / Minute == m && diff / Hour == h && diff / Day == h / 24;
    assert diff - Second * s < Second;
    assert s == 60 * m + s % 60;
    assert m == 60 * h + m % 60;
    assert h == 24 * (h / 24) + h % 24;
    Remaining(diff / Day, (diff / Hour) % 24, (diff / Minute) % 60, (diff / Second) % 60)
  }

  /** `Split` inverts `Millis`: any normal span, plus less than a second, splits
      back into the same span. */
  lemma SplitMillis(r: Remaining, ms: nat)
    requires Normal(r) && ms < Second && Millis(r) + ms > 0
    ensures Split(Millis(r) + ms) == r
  {
    var n := Millis(r) + ms;
    var hours := r.days * 24 + r.hours;
    var minutes := hours * 60 + r.minutes;
    var seconds := minutes * 60 + r.seconds;
    assert n == Second * seconds + ms;
    assert n / Second == seconds && seconds % 60 == r.seconds;
    assert n == Minute * minutes + (Second * r.seconds + ms);
    assert n / Minute == minutes && minutes % 60 == r.minutes;
    assert n == Hour * hours + (Minute * r.minutes + Second * r.seconds + ms);
    assert n / Hour == hours && hours % 24 == r.hours;
    assert n == Day * r.days + (Hour * r.hours + Minute * r.minutes + Second * r.seconds + ms);
    assert n / Day == r.days;
    assert Split(n) == Remaining(n / Day, (n / Hour) % 24, (n / Minute) % 60, (n / Second) % 60);
  }

  /** The template literal `${days}d ${hours}h ${minutes}m ${seconds}s`. */
  function Render(r: Remaining): (t: string)
    ensures |t| > 0 && IsDigit(t[0]) && t[|t| - 1] == 's'
    ensures StartsWith(t, NatToString(r.days) + "d ")
    ensures exists a, b, c, d ::
      && IsDigits(a) && IsDigits(b) && IsDigits(c) && IsDigits(d)
      && DigitsValue(a) == r.days && DigitsValue(b) == r.hours
      && DigitsValue(c) == r.minutes && DigitsValue(d) == r.seconds
      && t == a + "d " + b + "h " + c + "m " + d + "s"
  {
    NatToString(r.days) + "d " + NatToString(r.hours) + "h " + NatToString(r.minutes) + "m "
      + NatToString(r.seconds) + "s"
  }

  /** A rendered countdown opens with a digit, so it is never the ended text. */
  lemma RenderNotEnded(r: Remaining)
    ensures IsDigit(Render(r)[0])
    ensures Render(r) != Ended
  {
    var t := Render(r);
    var d := NatToString(r.days);
    assert t[0] == d[0];
    assert Ended[0] == 'C';
  }

  /** What one tick of the interval does: the new countdown text, and whether
      the interval keeps running. */
  datatype Tick = Tick(timeLeft: string, running: bool)

  /** The body of the interval callback for clock reading `now`. */
  function CountdownTick(deadline: int, now: int): (t: Tick)
    ensures t.running <==> deadline - now > 0
    ensures t.timeLeft == Ended <==> deadline - now <= 0
    ensures t.running ==> exists r :: Normal(r) && Millis(r) <= deadline - now < Millis(r) + Second && t.timeLeft == Render(r)
  {
    var diff := deadline - now;
    if diff <= 0 then Tick(Ended, false)
    else
      var r := Split(diff);
      RenderNotEnded(r);
      Tick(Render(r), true)
  }

  /** `handleRegister`: the path navigated to, or nothing once the countdown
      reads "Contest Ended". */
  function HandleRegister(timeLeft: string, id: string): (to: Option<string>)
    ensures to.None? <==> timeLeft == Ended
    ensures to.Some? ==> StartsWith(to.value, "/payment/") && to.value[|"/payment/"|..] == id
  {
    if timeLeft == Ended then None else Some("/payment/" + id)
  }

  /** The Register / Pay button is disabled on the same condition that makes
      `handleRegister` do nothing, whatever the contest. */
  function RegisterDisabled(timeLeft: string): (disabled: bool)
    ensures disabled <==> forall id :: HandleRegister(timeLeft, id).None?
  {
    assert HandleRegister(timeLeft, "").Some? <==> timeLeft != Ended;
    timeLeft == Ended
  }

  /** The state before the first tick (an empty countdown) lets the visitor
      register, and after a tick registering is blocked exactly when the
      deadline has passed; the button agrees with the handler throughout. */
  lemma RegisterGate(deadline: int, now: int, id: string)
    ensures HandleRegister("", id) == Some("/payment/" + id)
    ensures HandleRegister(CountdownTick(deadline, now).timeLeft, id).None? <==> deadline - now <= 0
    ensures forall t :: RegisterDisabled(t) <==> HandleRegister(t, id).None?
  {
    var t := CountdownTick(deadline, now);
    assert t.timeLeft == Ended <==> deadline - now <= 0;
    forall t: string ensures RegisterDisabled(t) <==> HandleRegister(t, id).None? {
      assert RegisterDisabled(t) <==> t == Ended;
    }
  }

  /** The task modal state: whether it is open and the text typed in it. */
  datatype TaskModal = TaskModal(showModal: bool, taskText: string)

  /** A toast shown with SweetAlert. */
  datatype Notice = Failure(title: string) | Success(title: string)

  /** `openTaskSubmit`: opens the modal whatever the countdown says, since the
      Submit Task button is never disabled. */
  function OpenTaskSubmit(m: TaskModal, timeLeft: string): (r: TaskModal)
    ensures r.showModal && r.taskText == m.taskText
  {
    m.(showModal := true)
  }

  /** `submitTask`: text that is empty after trimming is refused and the modal
      left as it is; anything else is accepted, closing the modal and clearing
      the text. */
  function SubmitTask(m: TaskModal): (r: (Notice, TaskModal))
    ensures r.0.Failure? <==> AllWhitespace(m.taskText)
    ensures r.0.Failure? ==> r.0.title == "Task cannot be empty" && r.1 == m
    ensures r.0.Success? ==> r.0.title == "Task Submitted Successfully!" && r.1 == TaskModal(false, "")
  {
    if Trim(m.taskText) == "" then (Failure("Task cannot be empty"), m)
    else (Success("Task Submitted Successfully!"), TaskModal(false, ""))
  }

  /** The modal, once opened, closes on submission exactly when the typed
      text is not blank; blank text leaves it open with the text kept. */
  lemma OpenThenSubmit(m: TaskModal, timeLeft: string)
    ensures var r := SubmitTask(OpenTaskSubmit(m, timeLeft));
      && (r.1.showModal <==> AllWhitespace(m.taskText))
      && (AllWhitespace(m.taskText) ==> r.1 == TaskModal(true, m.taskText))
  {
  }

  /** After a successful submission the text is cleared, so submitting again
      straight away is refused and changes nothing. */
  lemma SubmitTwice(m: TaskModal)
    requires SubmitTask(m).0.Success?
    ensures SubmitTask(SubmitTask(m).1).0.Failure?
    ensures SubmitTask(SubmitTask(m).1).1 == SubmitTask(m).1
  {
  }
}

=== FILE: dashboard_admin.dfy ===
/** The admin dashboard: changing a user's role and confirming, rejecting or
    deleting a contest. Both lists are the page's own demo records, kept in
    component state; every action is a pure update of that list. */
module DashBoardAdmin {
  import opened Seqs
  import opened Records

  /** A row of the user table. */
  datatype ManagedUser = ManagedUser(id: int, name: string, email: string, role: string, photo: string)

  /** A row of the contest table. */
  datatype ManagedContest = ManagedContest(
    id: int,
    name: string,
    creatorEmail: string,
    creatorName: string,
    entryFee: int,
    prizeMoney: int,
    status: string)

  /** `users.map(u => u.id === userId ? { ...u, role: newRole } : u)`: every
      user with that id gets the new role, and nothing else changes. */
  function SetRole(us: seq<ManagedUser>, userId: int, newRole: string): (r: seq<ManagedUser>)
    ensures |r| == |us|
    ensures forall i :: 0 <= i < |us| ==>
      r[i] == if us[i].id == userId then us[i].(role := newRole) else us[i]
  {
    if us == [] then []
    else
      var u := if us[0].id == userId then us[0].(role := newRole) else us[0];
      [u] + SetRole(us[1..], userId, newRole)
  }

  /** `handleRoleChange`: the updated list and the text of the alert. */
  function HandleRoleChange(us: seq<ManagedUser>, userId: int, newRole: string): (r: (seq<ManagedUser>, string))
    ensures |r.0| == |us|
    ensures forall i :: 0 <= i < |us| ==>
      && r.0[i].id == us[i].id && r.0[i].name == us[i].name
      && r.0[i].email == us[i].email && r.0[i].photo == us[i].photo
      && r.0[i].role == (if us[i].id == userId then newRole else us[i].role)
    ensures r.1 == "User role updated to " + newRole + "!"
  {
    (SetRole(us, userId, newRole), "User role updated to " + newRole + "!")
  }

  /** Setting a role twice for the same user keeps only the second choice; in
      particular choosing the same role again changes nothing. */
  lemma RoleChangeLastWins(us: seq<ManagedUser>, userId: int, first: string, second: string)
    ensures SetRole(SetRole(us, userId, first), userId, second) == SetRole(us, userId, second)
    ensures SetRole(SetRole(us, userId, first), userId, first) == SetRole(us, userId, first)
  {
  }

  /** Role changes for two different users do not interfere. */
  lemma RoleChangesCommute(us: seq<ManagedUser>, a: int, ra: string, b: int, rb: string)
    requires a != b
    ensures SetRole(SetRole(us, a, ra), b, rb) == SetRole(SetRole(us, b, rb), a, ra)
  {
  }

  /** The contests whose id is not `contestId`, each as often as before, in
      their original order. */
  function DeleteContest(cs: seq<ManagedContest>, contestId: int): (r: seq<ManagedContest>)
    ensures forall c :: c in r <==> c in cs && c.id != contestId
    ensures forall c :: multiset(r)[c] == if c.id == contestId then 0 else multiset(cs)[c]
    ensures IsSubsequence(r, cs)
  {
    Filter(cs, (c: ManagedContest) => c.id != contestId)
  }

  /** Deleting is done once and for all: deleting again changes nothing. */
  lemma DeleteTwice(cs: seq<ManagedContest>, contestId: int)
    ensures DeleteContest(DeleteContest(cs, contestId), contestId) == DeleteContest(cs, contestId)
  {
    FilterTwice(cs, (c: ManagedContest) => c.id != contestId);
  }

  /** `contests.map(c => c.id === contestId ? { ...c, status } : c)`. */
  function SetStatus(cs: seq<ManagedContest>, contestId: int, status: string): (r: seq<ManagedContest>)
    ensures |r| == |cs|
    ensures forall i :: 0 <= i < |cs| ==>
      r[i] == if cs[i].id == contestId then cs[i].(status := status) else cs[i]
  {
    if cs == [] then []
    else
      var c := if cs[0].id == contestId then cs[0].(status := status) else cs[0];
      [c] + SetStatus(cs[1..], contestId, status)
  }

  /** `handleContestAction`: "delete" removes the contest; "confirm" confirms
      it; any other action rejects it. The second component is the alert. */
  function HandleContestAction(cs: seq<ManagedContest>, contestId: int, action: string): (r: (seq<ManagedContest>, string))
    ensures action == "delete" ==>
      (forall c :: c in r.0 <==> c in cs && c.id != contestId) && IsSubsequence(r.0, cs)
      && (forall c :: multiset(r.0)[c] == if c.id == contestId then 0 else multiset(cs)[c])
      && r.1 == "Contest deleted permanently!"
    ensures action != "delete" ==>
      |r.0| == |cs| && r.1 == (if action == "confirm" then "Contest approved!" else "Contest rejected!")
      && forall i :: 0 <= i < |cs| ==>
        && r.0[i].id == cs[i].id && r.0[i].name == cs[i].name && r.0[i].creatorEmail == cs[i].creatorEmail
        && r.0[i].creatorName == cs[i].creatorName && r.0[i].entryFee == cs[i].entryFee
        && r.0[i].prizeMoney == cs[i].prizeMoney
        && r.0[i].status == (if cs[i].id != contestId then cs[i].status
                             else if action == "confirm" then Confirmed else Rejected)
  {
    if action == "delete" then (DeleteContest(cs, contestId), "Contest deleted permanently!")
    else
      var status := if action == "confirm" then Confirmed else Rejected;
      (SetStatus(cs, contestId, status), "Contest " + (if action == "confirm" then "approved" else "rejected") + "!")
  }

  /** Repeating an action on the same contest leaves the list as the first
      application left it. */
  lemma ContestActionIdempotent(cs: seq<ManagedContest>, contestId: int, action: string)
    ensures var once := HandleContestAction(cs, contestId, action).0;
      HandleContestAction(once, contestId, action).0 == once
  {
    if action == "delete" {
      DeleteTwice(cs, contestId);
    } else {
      var status := if action == "confirm" then Confirmed else Rejected;
      var once := SetStatus(cs, contestId, status);
      assert SetStatus(once, contestId, status) == once;
    }
  }

  /** The action buttons of a contest row: Confirm and Reject only while the
      contest is pending, Delete always. */
  function OfferedActions(c: ManagedContest): (actions: seq<string>)
    ensures "delete" in actions
    ensures "confirm" in actions <==> c.status == Pending
    ensures "reject" in actions <==> c.status == Pending
    ensures forall a :: a in actions ==> a in ["confirm", "reject", "delete"]
  {
    if c.status == Pending then ["confirm", "reject", "delete"] else ["delete"]
  }

  /** An action offered on a row of the table moves that contest out of
      "Pending": it is either gone or confirmed or rejected. */
  lemma OfferedActionDecides(cs: seq<ManagedContest>, i: nat, action: string)
    requires i < |cs| && action in OfferedActions(cs[i])
    ensures var r := HandleContestAction(cs, cs[i].id, action).0;
      forall c :: c in r && c.id == cs[i].id ==> c.status in {Confirmed, Rejected}
  {
    var r := HandleContestAction(cs, cs[i].id, action).0;
    if action != "delete" {
      assert action in {"confirm", "reject"};
      forall c | c in r && c.id == cs[i].id ensures c.status in {Confirmed, Rejected} {
        var k :| 0 <= k < |r| && r[k] == c;
      }
    }
  }
}

=== FILE: edit_contest.dfy ===
/** The edit-contest page: the form prefilled from the stored contest, its
    field rules, the PATCH payload built from it, and the rule that only a
    pending contest can be edited. Amounts are whole numbers and the deadline
    is integer milliseconds. */
module EditContest {
  import opened Values
  import opened Text
  import opened Records

  /** The form values. An empty text field is ""; a number field or the date
      picker left empty is `None`. */
  datatype Form = Form(
    name: string,
    image: string,
    description: string,
    price: Option<int>,
    prizeMoney: Option<int>,
    taskInstruction: string,
    contestType: string,
    deadline: Option<int>)

  /** The body of the PATCH request. */
  datatype Payload = Payload(
    name: string,
    image: string,
    description: string,
    price: int,
    prizeMoney: int,
    taskInstruction: string,
    contestType: string,
    deadline: int)

  /** The fields of the form, in the order they appear. */
  datatype Field = Name | Image | Description | Price | PrizeMoney | TaskInstruction | ContestType

  /** A field rule that failed, with the message shown under the field. */
  datatype FieldError = FieldError(field: Field, message: string)

  /** Position of a field on the form. */
  function Position(fl: Field): nat
  {
    match fl
    case Name => 0
    case Image => 1
    case Description => 2
    case Price => 3
    case PrizeMoney => 4
    case TaskInstruction => 5
    case ContestType => 6
  }

  /** Errors listed in the order of their fields on the form, so no field has two. */
  predicate InFieldOrder(es: seq<FieldError>)
  {
    forall i, j :: 0 <= i < j < |es| ==> Position(es[i].field) < Position(es[j].field)
  }

  /** At most one error, and only for `fl`. */
  predicate OnlyFor(es: seq<FieldError>, fl: Field)
  {
    |es| <= 1 && forall e :: e in es ==> e.field == fl
  }

  /** Putting one field's error in front of errors for later fields keeps
      field order. */
  lemma PrependField(a: seq<FieldError>, b: seq<FieldError>, fl: Field)
    requires OnlyFor(a, fl)
    requires InFieldOrder(b) && forall e :: e in b ==> Position(fl) < Position(e.field)
    ensures InFieldOrder(a + b)
  {
    forall i, j | 0 <= i < j < |a + b| ensures Position((a + b)[i].field) < Position((a + b)[j].field) {
      if j >= |a| && i < |a| {
        assert (a + b)[j] in b;
        assert (a + b)[i] in a;
      } else if j >= |a| {
        assert (a + b)[i] == b[i - |a|] && (a + b)[j] == b[j - |a|];
      }
    }
  }

  const MinimumFee := 100
  const SecureScheme := "https://"

  /** The form filled from the stored contest, renaming `bannerImage`,
      `entryFee`, `taskDetails` and `contentType`. */
  function Prefill(c: Contest): (f: Form)
    ensures f.image == c.bannerImage && f.price == c.entryFee
    ensures f.taskInstruction == c.taskDetails && f.contestType == c.contentType
    ensures f.name == c.name && f.description == c.description && f.prizeMoney == c.prizeMoney
    ensures f.deadline == Some(c.deadline)
  {
    Form(c.name, c.bannerImage, c.description, c.entryFee, c.prizeMoney, c.taskDetails, c.contentType, Some(c.deadline))
  }

  /** A required text field fails only when empty; whitespace counts as a value. */
  function Required(field: Field, value: string, message: string): (e: seq<FieldError>)
    ensures e == [] <==> value != ""
    ensures e != [] ==> e == [FieldError(field, message)]
    ensures OnlyFor(e, field)
  {
    if value == "" then [FieldError(field, message)] else []
  }

  /** The banner URL: required, then it must begin with "https://". */
  function ImageRule(image: string): (e: seq<FieldError>)
    ensures e == [] <==> StartsWith(image, SecureScheme)
    ensures OnlyFor(e, Image)
    ensures image == "" ==> e == [FieldError(Image, "Image URL is required")]
    ensures image != "" && !StartsWith(image, SecureScheme) ==> e == [FieldError(Image, "Must be HTTPS URL")]
  {
    if image == "" then [FieldError(Image, "Image URL is required")]
    else if !StartsWith(image, SecureScheme) then [FieldError(Image, "Must be HTTPS URL")]
    else []
  }

  /** The entry fee: required, then at least 100. */
  function PriceRule(price: Option<int>): (e: seq<FieldError>)
    ensures e == [] <==> price.Some? && price.value >= MinimumFee
    ensures OnlyFor(e, Price)
    ensures price.None? ==> e == [FieldError(Price, "Entry fee required")]
    ensures price.Some? && price.value < MinimumFee ==> e == [FieldError(Price, "Minimum \U{09F3}100")]
  {
    if price.None? then [FieldError(Price, "Entry fee required")]
    else if price.value < MinimumFee then [FieldError(Price, "Minimum \U{09F3}100")]
    else []
  }

  /** The prize money: required, any amount. */
  function PrizeRule(prizeMoney: Option<int>): (e: seq<FieldError>)
    ensures e == [] <==> prizeMoney.Some?
    ensures e != [] ==> e == [FieldError(PrizeMoney, "Prize money required")]
    ensures OnlyFor(e, PrizeMoney)
  {
    if prizeMoney.None? then [FieldError(PrizeMoney, "Prize money required")] else []
  }

  /** Reference statement of the field rules: what a form must satisfy to be
      sent. The deadline has no field rule. */
  predicate Acceptable(f: Form)
  {
    && f.name != ""
    && StartsWith(f.image, SecureScheme)
    && f.description != ""
    && f.price.Some? && f.price.value >= MinimumFee
    && f.prizeMoney.Some?
    && f.taskInstruction != ""
    && f.contestType != ""
  }

  /** The rule registered on field `fl`, applied to the form. */
  function RuleFor(f: Form, fl: Field): (e: seq<FieldError>)
    ensures OnlyFor(e, fl)
  {
    match fl
    case Name => Required(Name, f.name, "Contest name is required")
    case Image => ImageRule(f.image)
    case Description => Required(Description, f.description, "Description is required")
    case Price => PriceRule(f.price)
    case PrizeMoney => PrizeRule(f.prizeMoney)
    case TaskInstruction => Required(TaskInstruction, f.taskInstruction, "Task instruction required")
    case ContestType => Required(ContestType, f.contestType, "Select contest type")
  }

  /** Fields listed in the order of the form, each once. */
  predicate Ordered(fs: seq<Field>)
  {
    forall i, j :: 0 <= i < j < |fs| ==> Position(fs[i]) < Position(fs[j])
  }

  /** The fields in the order the form lists them. */
  const FormOrder := [Name, Image, Description, Price, PrizeMoney, TaskInstruction, ContestType]

  /** The errors of the rules of `fs`, taken in that order, where `rule`
      gives each field's errors: every error is its field's failing rule,
      every failing rule shows its error, and there is none exactly when
      every rule passes. */
  function ErrorsFor(rule: Field -> seq<FieldError>, fs: seq<Field>): (errors: seq<FieldError>)
    requires forall fl :: OnlyFor(rule(fl), fl)
    ensures forall e :: e in errors ==> [e] == rule(e.field) && e.field in fs
    ensures forall fl :: fl in fs && rule(fl) != [] ==> rule(fl)[0] in errors
    ensures errors == [] <==> forall fl :: fl in fs ==> rule(fl) == []
    ensures Ordered(fs) ==> InFieldOrder(errors)
  {
    if fs == [] then []
    else
      var head := rule(fs[0]);
      var rest := ErrorsFor(rule, fs[1..]);
      assert forall e :: e in head ==> head == [e];
      assert forall e :: e in head + rest <==> e in head || e in rest;
      assert forall fl :: fl in fs <==> fl == fs[0] || fl in fs[1..];
      if Ordered(fs) then
        LaterFields(fs);
        PrependField(head, rest, fs[0]);
        head + rest
      else
        head + rest
  }

  /** For fields listed in form order, the rules of the later ones are still
      in form order and only name fields after the first. */
  lemma LaterFields(fs: seq<Field>)
    requires fs != [] && Ordered(fs)
    ensures Ordered(fs[1..])
    ensures forall fl :: fl in fs[1..] ==> Position(fs[0]) < Position(fl)
  {
    forall fl | fl in fs[1..] ensures Position(fs[0]) < Position(fl) {
      var k :| 0 <= k < |fs[1..]| && fs[1..][k] == fl;
      assert fs[k + 1] == fl;
    }
  }

  /** Every field is on the form, and a form is acceptable exactly when each
      of its fields' rules passes. */
  lemma RulesOfForm(f: Form)
    ensures forall fl: Field :: fl in FormOrder
    ensures Ordered(FormOrder)
    ensures Acceptable(f) <==> forall fl :: fl in FormOrder ==> RuleFor(f, fl) == []
  {
    forall fl: Field ensures fl in FormOrder {
      match fl
      case Name => assert FormOrder[0] == fl;
      case Image => assert FormOrder[1] == fl;
      case Description => assert FormOrder[2] == fl;
      case Price => assert FormOrder[3] == fl;
      case PrizeMoney => assert FormOrder[4] == fl;
      case TaskInstruction => assert FormOrder[5] == fl;
      case ContestType => assert FormOrder[6] == fl;
    }
    assert forall i :: 0 <= i < |FormOrder| ==> Position(FormOrder[i]) == i;
    assert RuleFor(f, Name) == [] <==> f.name != "";
    assert RuleFor(f, Image) == [] <==> StartsWith(f.image, SecureScheme);
    assert RuleFor(f, Description) == [] <==> f.description != "";
    assert RuleFor(f, Price) == [] <==> f.price.Some? && f.price.value >= MinimumFee;
    assert RuleFor(f, PrizeMoney) == [] <==> f.prizeMoney.Some?;
    assert RuleFor(f, TaskInstruction) == [] <==> f.taskInstruction != "";
    assert RuleFor(f, ContestType) == [] <==> f.contestType != "";
  }

  /** The errors the form shows: one per failing field, in the order of the
      fields on the form. Every error shown is its field's rule failing, and
      every failing rule shows its error. */
  function Validate(f: Form): (errors: seq<FieldError>)
    ensures errors == [] <==> Acceptable(f)
    ensures InFieldOrder(errors)
    ensures forall e :: e in errors ==> [e] == RuleFor(f, e.field)
    ensures forall fl: Field :: RuleFor(f, fl) != [] ==> RuleFor(f, fl)[0] in errors
  {
    var rule := fl => RuleFor(f, fl);
    assert forall fl :: rule(fl) == RuleFor(f, fl);
    RulesOfForm(f);
    var errors := ErrorsFor(rule, FormOrder);
    assert errors == [] <==> forall fl :: fl in FormOrder ==> RuleFor(f, fl) == [];
    errors
  }

  /** What pressing "Update Contest" leads to: the field errors, the failure
      toast when building the payload throws, or the request. */
  datatype SubmitResult = Invalid(errors: seq<FieldError>) | Failed(message: string) | Sent(payload: Payload)

  /** `handleSubmit(onSubmit)`: `onSubmit` runs only on a form without field
      errors; without a deadline `toISOString` throws and the generic failure
      message is shown. */
  function Submit(f: Form): (r: SubmitResult)
    ensures r.Invalid? <==> !Acceptable(f)
    ensures r.Invalid? ==> r.errors == Validate(f) && r.errors != []
    ensures r.Failed? <==> Acceptable(f) && f.deadline.None?
    ensures r.Failed? ==> r.message == "Failed to update"
    ensures r.Sent? ==>
      && f.price.Some? && f.prizeMoney.Some? && f.deadline.Some?
      && r.payload == Payload(f.name, f.image, f.description, f.price.value, f.prizeMoney.value,
                              f.taskInstruction, f.contestType, f.deadline.value)
  {
    var errors := Validate(f);
    if errors != [] then Invalid(errors)
    else if f.deadline.None? then Failed("Failed to update")
    else Sent(Payload(f.name, f.image, f.description, f.price.value, f.prizeMoney.value,
                      f.taskInstruction, f.contestType, f.deadline.value))
  }

  /** What the page shows once the contest is fetched. */
  datatype View = Loading | NotEditable(message: string) | Editor(form: Form)

  /** The pending gate: the editor only for a contest whose status is
      "Pending"; a missing contest is not editable either. */
  function EditView(loading: bool, contest: Option<Contest>): (v: View)
    ensures v == Loading <==> loading
    ensures v.Editor? <==> !loading && contest.Some? && contest.value.status == Pending
    ensures v.Editor? ==> v.form == Prefill(contest.value)
    ensures v.NotEditable? ==> v.message == "Only pending contests can be edited."
  {
    if loading then Loading
    else if contest.None? || contest.value.status != Pending then NotEditable("Only pending contests can be edited.")
    else Editor(Prefill(contest.value))
  }

  /** The stored contest after the backend applies `p`, renaming the fields
      back. The backend is not part of this model; this is the inverse of
      `Prefill` the round trip below is stated against. */
  function Stored(c: Contest, p: Payload): (c': Contest)
    ensures c'.id == c.id && c'.status == c.status && c'.winner == c.winner
  {
    c.(name := p.name, bannerImage := p.image, description := p.description,
       entryFee := Some(p.price), prizeMoney := Some(p.prizeMoney), taskDetails := p.taskInstruction,
       contentType := p.contestType, deadline := p.deadline)
  }

  /** Submitting the prefilled form of a pending contest unchanged sends back
      exactly the stored values, under the form's field names. */
  lemma PrefillRoundTrip(c: Contest)
    requires Acceptable(Prefill(c))
    ensures Submit(Prefill(c)).Sent?
    ensures var p := Submit(Prefill(c)).payload;
      && p.name == c.name && p.image == c.bannerImage && p.description == c.description
      && Some(p.price) == c.entryFee && Some(p.prizeMoney) == c.prizeMoney
      && p.taskInstruction == c.taskDetails && p.contestType == c.contentType
      && p.deadline == c.deadline
    ensures Stored(c, Submit(Prefill(c)).payload) == c
  {
  }

  /** The editor the page opens for a pending contest holds the prefilled
      form; when that form is acceptable, sending it unchanged leaves the
      stored contest as it was. Any other status never reaches a request. */
  lemma EditorRoundTrip(c: Contest)
    ensures EditView(false, Some(c)).Editor? <==> c.status == Pending
    ensures EditView(false, Some(c)).Editor? && Acceptable(EditView(false, Some(c)).form) ==>
      && Submit(EditView(false, Some(c)).form).Sent?
      && Stored(c, Submit(EditView(false, Some(c)).form).payload) == c
  {
    if c.status == Pending && Acceptable(Prefill(c)) {
      PrefillRoundTrip(c);
    }
  }

  /** Whatever form is sent, the stored result prefills the same form again. */
  lemma SentFormRoundTrip(c: Contest, f: Form)
    requires Submit(f).Sent?
    ensures Prefill(Stored(c, Submit(f).payload)) == f
  {
  }
}

=== FILE: leaderboard.dfy ===
/** The leaderboard: confirmed contests with a winner email are grouped by that
    email, each group becomes one leader carrying its win count, and the leaders
    are ordered by wins, most first. */
module LeaderBoard {
  import opened Values
  import opened Text
  import opened Seqs
  import opened Records

  /** Photo shown for a winner who has none. */
  const PlaceholderPhoto := "https://via.placeholder.com/150"

  datatype Leader = Leader(email: string, name: string, photo: string, wins: nat)

  /** A contest counts towards the leaderboard when it has a winner with a
      non-empty email and its status is "Confirmed". */
  predicate Qualifies(c: Contest)
  {
    c.winner.Some? && Truthy(c.winner.value.email) && c.status == Confirmed
  }

  /** `c.winner.email`, read only where the contest qualifies. */
  function WinnerEmail(c: Contest): string
  {
    if c.winner.Some? && c.winner.value.email.Some? then c.winner.value.email.value else ""
  }

  /** `winningContests`: the qualifying contests, in their original order. */
  function Winning(cs: seq<Contest>): seq<Contest>
  {
    Filter(cs, Qualifies)
  }

  /** The winner email of each contest, in order. */
  function Emails(qs: seq<Contest>): (es: seq<string>)
    ensures |es| == |qs|
    ensures forall i :: 0 <= i < |qs| ==> es[i] == WinnerEmail(qs[i])
  {
    if qs == [] then [] else [WinnerEmail(qs[0])] + Emails(qs[1..])
  }

  /** Reference count: how many qualifying contests of `cs` the email `e` won. */
  function WinsOf(cs: seq<Contest>, e: string): nat
  {
    if cs == [] then 0
    else (if Qualifies(cs[0]) && WinnerEmail(cs[0]) == e then 1 else 0) + WinsOf(cs[1..], e)
  }

  /** The `winCount` object built by the `forEach` loop: one key per email,
      holding the number of times it occurs. */
  function CountWins(es: seq<string>): (counts: map<string, nat>)
    ensures forall e :: e in counts <==> e in es
    ensures forall e :: e in counts ==> counts[e] == multiset(es)[e]
  {
    if es == [] then map[]
    else
      var init, last := es[..|es| - 1], es[|es| - 1];
      assert es == init + [last];
      var counts := CountWins(init);
      counts[last := (if last in counts then counts[last] else 0) + 1]
  }

  /** `c.winner?.email === email` */
  predicate WonBy(c: Contest, email: string)
  {
    c.winner.Some? && c.winner.value.email == Some(email)
  }

  /** The leader record for `email`: name and photo come from the first winning
      contest of that email, with the fallbacks of the page. */
  function MakeLeader(qs: seq<Contest>, email: string, wins: nat): (l: Leader)
    ensures l.email == email && l.wins == wins
    ensures forall i :: 0 <= i < |qs| && WonBy(qs[i], email) && (forall j :: 0 <= j < i ==> !WonBy(qs[j], email)) ==>
      ProfileFrom(l, qs[i].winner.value)
    ensures (forall i :: 0 <= i < |qs| ==> !WonBy(qs[i], email)) ==>
      l.name == Or(Some(BeforeFirst(email, '@')), "Unknown") && l.photo == PlaceholderPhoto
  {
    var sample := Find(qs, c => WonBy(c, email));
    var winner := if sample.Some? then sample.value.winner else None;
    var name := if winner.Some? then winner.value.name else None;
    var photo := if winner.Some? then winner.value.photo else None;
    Leader(email, Or(name, Or(Some(BeforeFirst(email, '@')), "Unknown")), Or(photo, PlaceholderPhoto), wins)
  }

  /** `Object.entries(winCount).map(...)`, the keys taken in `order`. */
  function Tally(qs: seq<Contest>, order: seq<string>, counts: map<string, nat>): (ls: seq<Leader>)
    requires forall e :: e in order ==> e in counts
    ensures |ls| == |order|
    ensures forall i :: 0 <= i < |order| ==> ls[i].email == order[i] && ls[i].wins == counts[order[i]]
  {
    if order == [] then [] else [MakeLeader(qs, order[0], counts[order[0]])] + Tally(qs, order[1..], counts)
  }

  lemma {:induction false} TallyAt(qs: seq<Contest>, order: seq<string>, counts: map<string, nat>, i: nat)
    requires forall e :: e in order ==> e in counts
    requires i < |order|
    ensures Tally(qs, order, counts)[i] == MakeLeader(qs, order[i], counts[order[i]])
  {
    if i > 0 {
      TallyAt(qs, order[1..], counts, i - 1);
    }
  }

  predicate SortedByWins(ls: seq<Leader>)
  {
    forall i, j :: 0 <= i < j < |ls| ==> ls[i].wins >= ls[j].wins
  }

  predicate UniqueEmails(ls: seq<Leader>)
  {
    forall i, j :: 0 <= i < j < |ls| ==> ls[i].email != ls[j].email
  }

  function SumWins(ls: seq<Leader>): nat
  {
    if ls == [] then 0 else ls[0].wins + SumWins(ls[1..])
  }

  /** One step of a stable sort by wins, most first: `x` goes before the first
      leader it does not trail. */
  function Insert(x: Leader, ls: seq<Leader>): (r: seq<Leader>)
    ensures |r| == |ls| + 1
    ensures multiset(r) == multiset(ls) + multiset{x}
    ensures forall y :: y in r <==> y in ls || y == x
  {
    if ls == [] || x.wins >= ls[0].wins then [x] + ls
    else
      assert ls == [ls[0]] + ls[1..];
      [ls[0]] + Insert(x, ls[1..])
  }

  /** Inserting into a list sorted by wins keeps it sorted. */
  lemma {:induction false} InsertSorted(x: Leader, ls: seq<Leader>)
    requires SortedByWins(ls)
    ensures SortedByWins(Insert(x, ls))
  {
    if ls != [] && x.wins < ls[0].wins {
      var rest := Insert(x, ls[1..]);
      InsertSorted(x, ls[1..]);
      var r := Insert(x, ls);
      assert r == [ls[0]] + rest;
      forall j | 0 < j < |r| ensures r[0].wins >= r[j].wins {
        assert r[j] in rest;
        if r[j] != x {
          var k :| 0 <= k < |ls[1..]| && ls[1..][k] == r[j];
          assert ls[k + 1] == r[j];
        }
      }
      forall i, j | 0 < i < j < |r| ensures r[i].wins >= r[j].wins {
        assert r[i] == rest[i - 1] && r[j] == rest[j - 1];
      }
    }
  }

  /** `.sort((a, b) => b.wins - a.wins)`, which is stable. */
  function SortByWins(ls: seq<Leader>): (r: seq<Leader>)
    ensures |r| == |ls|
    ensures multiset(r) == multiset(ls)
    ensures forall y :: y in r <==> y in ls
    ensures SortedByWins(r)
  {
    if ls == [] then []
    else
      assert ls == [ls[0]] + ls[1..];
      InsertSorted(ls[0], SortByWins(ls[1..]));
      Insert(ls[0], SortByWins(ls[1..]))
  }

  /** The leaders of the winning contests `qs`: one per winner email, with
      its number of wins, ordered by wins. */
  function Rank(qs: seq<Contest>): (ls: seq<Leader>)
    ensures SortedByWins(ls)
    ensures UniqueEmails(ls)
    ensures forall l :: l in ls ==> l.email in Emails(qs) && l.wins == multiset(Emails(qs))[l.email]
    ensures forall e :: e in Emails(qs) ==> e in LeaderEmails(ls)
    ensures SumWins(ls) == |qs|
  {
    var es := Emails(qs);
    var order := Dedup(es);
    var counts := CountWins(es);
    var tally := Tally(qs, order, counts);
    SortUnique(tally);
    SortSum(tally);
    TallySum(qs, order, es);
    CountAllCovers(order, es);
    TallyMembers(tally, order, counts, es);
    TallyCovers(tally, order, es);
    SortByWins(tally)
  }

  /** The leaderboard computed from all contests. */
  function Leaderboard(cs: seq<Contest>): (ls: seq<Leader>)
    ensures ls == [] <==> Winning(cs) == []
    ensures SortedByWins(ls) && UniqueEmails(ls)
    ensures SumWins(ls) == |Winning(cs)|
  {
    var qs := Winning(cs);
    if |qs| == 0 then [] else Rank(qs)
  }

  /** The emails on a list of leaders. */
  function LeaderEmails(ls: seq<Leader>): set<string>
  {
    set l | l in ls :: l.email
  }

  lemma TallyMembers(tally: seq<Leader>, order: seq<string>, counts: map<string, nat>, es: seq<string>)
    requires |tally| == |order|
    requires forall e :: e in order ==> e in es
    requires forall e :: e in counts ==> counts[e] == multiset(es)[e]
    requires forall i :: 0 <= i < |order| ==> tally[i].email == order[i] && order[i] in counts && tally[i].wins == counts[order[i]]
    ensures forall l :: l in SortByWins(tally) ==> l.email in es && l.wins == multiset(es)[l.email]
  {
    forall l | l in SortByWins(tally) ensures l.email in es && l.wins == multiset(es)[l.email] {
      assert l in tally;
      var k :| 0 <= k < |tally| && tally[k] == l;
      assert order[k] in order;
    }
  }

  lemma TallyCovers(tally: seq<Leader>, order: seq<string>, es: seq<string>)
    requires |tally| == |order|
    requires forall e :: e in es ==> e in order
    requires forall i :: 0 <= i < |order| ==> tally[i].email == order[i]
    ensures forall e :: e in es ==> e in LeaderEmails(SortByWins(tally))
  {
    forall e | e in es ensures e in LeaderEmails(SortByWins(tally)) {
      var k :| 0 <= k < |order| && order[k] == e;
      assert tally[k] in SortByWins(tally);
    }
  }

  // ---------------------------------------------------------------------------
  // Facts about the pipeline

  lemma {:induction false} InsertSum(x: Leader, ls: seq<Leader>)
    ensures SumWins(Insert(x, ls)) == x.wins + SumWins(ls)
  {
    if ls != [] && x.wins < ls[0].wins {
      InsertSum(x, ls[1..]);
      assert ([ls[0]] + Insert(x, ls[1..]))[1..] == Insert(x, ls[1..]);
    }
  }

  lemma {:induction false} SortSum(ls: seq<Leader>)
    ensures SumWins(SortByWins(ls)) == SumWins(ls)
  {
    if ls != [] {
      SortSum(ls[1..]);
      InsertSum(ls[0], SortByWins(ls[1..]));
    }
  }

  lemma {:induction false} InsertUnique(x: Leader, ls: seq<Leader>)
    requires UniqueEmails(ls)
    requires forall y :: y in ls ==> y.email != x.email
    ensures UniqueEmails(Insert(x, ls))
  {
    if ls != [] && x.wins < ls[0].wins {
      assert UniqueEmails(ls[1..]);
      InsertUnique(x, ls[1..]);
      var rest := Insert(x, ls[1..]);
      var r := [ls[0]] + rest;
      forall i, j | 0 <= i < j < |r| ensures r[i].email != r[j].email {
        if i == 0 {
          assert r[j] in rest;
          if r[j] != x {
            var k :| 0 <= k < |ls[1..]| && ls[1..][k] == r[j];
            assert ls[k + 1] == r[j];
          }
        } else {
          assert r[i] == rest[i - 1] && r[j] == rest[j - 1];
        }
      }
    }
  }

  lemma {:induction false} SortUnique(ls: seq<Leader>)
    requires UniqueEmails(ls)
    ensures UniqueEmails(SortByWins(ls))
  {
    if ls != [] {
      assert UniqueEmails(ls[1..]);
      SortUnique(ls[1..]);
      forall y | y in SortByWins(ls[1..]) ensures y.email != ls[0].email {
        var k :| 0 <= k < |ls[1..]| && ls[1..][k] == y;
        assert ls[k + 1] == y;
      }
      InsertUnique(ls[0], SortByWins(ls[1..]));
    }
  }

  lemma {:induction false} TallySum(qs: seq<Contest>, order: seq<string>, es: seq<string>)
    requires forall e :: e in order ==> e in CountWins(es)
    ensures SumWins(Tally(qs, order, CountWins(es))) == CountAll(order, es)
  {
    if order != [] {
      TallySum(qs, order[1..], es);
    }
  }

  lemma {:induction false} WinsOfCount(cs: seq<Contest>, e: string)
    ensures multiset(Emails(Winning(cs)))[e] == WinsOf(cs, e)
  {
    if cs != [] {
      WinsOfCount(cs[1..], e);
      var rest := Winning(cs[1..]);
      if Qualifies(cs[0]) {
        assert Winning(cs) == [cs[0]] + rest;
        assert ([cs[0]] + rest)[1..] == rest;
        assert Emails(Winning(cs)) == [WinnerEmail(cs[0])] + Emails(rest);
      } else {
        assert Winning(cs) == rest;
      }
    }
  }

  // ---------------------------------------------------------------------------
  // What the leaderboard promises

  /** The winner emails of the qualifying contests. */
  function WinnerEmails(cs: seq<Contest>): set<string>
  {
    set c | c in cs && Qualifies(c) :: WinnerEmail(c)
  }

  lemma WinningEmails(cs: seq<Contest>, e: string)
    ensures e in Emails(Winning(cs)) <==> e in WinnerEmails(cs)
  {
    var qs := Winning(cs);
    var es := Emails(qs);
    if e in es {
      var i :| 0 <= i < |es| && es[i] == e;
      assert qs[i] in qs;
    }
    if e in WinnerEmails(cs) {
      var c :| c in cs && Qualifies(c) && WinnerEmail(c) == e;
      assert c in qs;
      var i :| 0 <= i < |qs| && qs[i] == c;
      assert es[i] == e;
    }
  }

  /** Only qualifying contests matter: dropping every other contest leaves the
      leaderboard as it is. */
  lemma LeaderboardOnlyQualifying(cs: seq<Contest>)
    ensures Leaderboard(Winning(cs)) == Leaderboard(cs)
  {
    FilterTwice(cs, Qualifies);
  }

  /** The leaderboard is empty exactly when no contest qualifies. */
  lemma LeaderboardEmpty(cs: seq<Contest>)
    ensures Leaderboard(cs) == [] <==> forall c :: c in cs ==> !Qualifies(c)
  {
    var qs := Winning(cs);
    if |qs| != 0 {
      var es := Emails(qs);
      assert es[0] in es;
      assert qs[0] in qs;
    }
  }

  /** Every leader is the winner of some qualifying contest, every winner of a
      qualifying contest is a leader, and no email appears twice. */
  lemma LeaderboardEmails(cs: seq<Contest>)
    ensures LeaderEmails(Leaderboard(cs)) == WinnerEmails(cs)
    ensures UniqueEmails(Leaderboard(cs))
  {
    var qs := Winning(cs);
    forall e ensures e in LeaderEmails(Leaderboard(cs)) <==> e in WinnerEmails(cs) {
      WinningEmails(cs, e);
      if e in LeaderEmails(Leaderboard(cs)) {
        var l :| l in Leaderboard(cs) && l.email == e;
      }
    }
  }

  /** A leader's wins are the number of qualifying contests that email won,
      hence at least one. */
  lemma LeaderboardWins(cs: seq<Contest>)
    ensures forall l :: l in Leaderboard(cs) ==> l.wins == WinsOf(cs, l.email) && l.wins >= 1
  {
    forall l | l in Leaderboard(cs) ensures l.wins == WinsOf(cs, l.email) && l.wins >= 1 {
      WinsOfCount(cs, l.email);
    }
  }

  /** The wins add up to the number of qualifying contests. */
  lemma LeaderboardTotal(cs: seq<Contest>)
    ensures SumWins(Leaderboard(cs)) == |Winning(cs)|
  {
  }

  /** Leaders are listed by wins, most first. */
  lemma LeaderboardSorted(cs: seq<Contest>)
    ensures SortedByWins(Leaderboard(cs))
  {
  }

  /** Name and photo of a leader as the page derives them from `winner`, the
      winner record of the first winning contest of that email. */
  predicate ProfileFrom(l: Leader, winner: Winner)
  {
    && l.name == Or(winner.name, Or(Some(BeforeFirst(l.email, '@')), "Unknown"))
    && l.photo == Or(winner.photo, PlaceholderPhoto)
  }

  /** `qs[i]` is the first contest of `qs` won by `e`. */
  predicate FirstWinOf(qs: seq<Contest>, i: int, e: string)
  {
    && 0 <= i < |qs| && qs[i].winner.Some? && WinnerEmail(qs[i]) == e
    && forall j :: 0 <= j < i ==> WinnerEmail(qs[j]) != e
  }

  /** A leader's name is the name on the first winning contest of that email,
      else the part of the email before "@", else "Unknown"; the photo is that
      contest's winner photo, else the placeholder. */
  lemma LeaderboardProfile(cs: seq<Contest>)
    ensures forall l :: l in Leaderboard(cs) ==>
      exists i :: FirstWinOf(Winning(cs), i, l.email) && ProfileFrom(l, Winning(cs)[i].winner.value)
  {
    var qs := Winning(cs);
    if |qs| != 0 {
      forall l | l in Leaderboard(cs)
        ensures exists i :: FirstWinOf(qs, i, l.email) && ProfileFrom(l, qs[i].winner.value)
      {
        var i := RankedProfile(cs, l);
      }
    }
  }

  lemma RankedProfile(cs: seq<Contest>, l: Leader) returns (i: nat)
    requires |Winning(cs)| != 0 && l in Rank(Winning(cs))
    ensures FirstWinOf(Winning(cs), i, l.email) && ProfileFrom(l, Winning(cs)[i].winner.value)
  {
    RankedLeader(Winning(cs), l);
    i := SampleIsFirstWin(cs, l.email);
  }

  /** Every ranked leader is the record `MakeLeader` builds for its email. */
  lemma RankedLeader(qs: seq<Contest>, l: Leader)
    requires l in Rank(qs)
    ensures l.email in Emails(qs) && l == MakeLeader(qs, l.email, l.wins)
  {
    var es := Emails(qs);
    var order := Dedup(es);
    var counts := CountWins(es);
    var tally := Tally(qs, order, counts);
    assert l in tally;
    var k :| 0 <= k < |tally| && tally[k] == l;
    TallyAt(qs, order, counts, k);
  }

  /** The contest `find` picks for `e` is its first win among the winning contests. */
  lemma SampleIsFirstWin(cs: seq<Contest>, e: string) returns (i: nat)
    requires e in Emails(Winning(cs))
    ensures FirstWinOf(Winning(cs), i, e)
    ensures Find(Winning(cs), c => WonBy(c, e)) == Some(Winning(cs)[i])
  {
    var qs := Winning(cs);
    var es := Emails(qs);
    var p := c => WonBy(c, e);
    assert forall j :: 0 <= j < |qs| ==> (p(qs[j]) <==> WinnerEmail(qs[j]) == e) by {
      forall j | 0 <= j < |qs| ensures p(qs[j]) <==> WinnerEmail(qs[j]) == e {
        assert qs[j] in qs;
        assert qs[j] in cs && Qualifies(qs[j]);
      }
    }
    var m :| 0 <= m < |es| && es[m] == e;
    assert p(qs[m]);
    var sample := Find(qs, p);
    assert sample.Some?;
    i :| 0 <= i < |qs| && qs[i] == sample.value && p(qs[i]) && forall j :: 0 <= j < i ==> !p(qs[j]);
  }
}

=== FILE: privet_route.dfy ===
/** The route guard: decides, for the signed-in state and the roles a route
    admits, whether to wait, render the protected page or redirect. */
module PrivetRoute {
  import opened Values
  import opened Records
  import RoleRedirect

  /** What the guard renders: the loading view, the protected children, or a
      redirect that may carry the path the visitor came from. */
  datatype Outcome = ShowLoading | Render | Redirect(to: string, from: Option<string>)

  /** `allowedRoles.includes(user.role)`: an absent role is never listed. */
  predicate RoleAllowed(role: Option<string>, allowedRoles: seq<string>)
  {
    role.Some? && role.value in allowedRoles
  }

  /** The guard for a visit to `pathname`. */
  function Decide(loading: bool, user: Option<AuthUser>, pathname: string, allowedRoles: seq<string>): (o: Outcome)
    ensures loading <==> o == ShowLoading
    ensures !loading && user.None? ==> o == Redirect(RoleRedirect.LoginPath, Some(pathname))
    ensures o == Render <==> !loading && user.Some? && (allowedRoles == [] || RoleAllowed(user.value.role, allowedRoles))
    ensures o.Redirect? && user.Some? ==> o.to == RoleRedirect.Destination(user) && o.to != RoleRedirect.LoginPath && o.from.None?
  {
    if loading then ShowLoading
    else if user.None? then Redirect("/login", Some(pathname))
    else if |allowedRoles| == 0 then Render
    else if !RoleAllowed(user.value.role, allowedRoles) then
      var role := user.value.role;
      Redirect(if role == Some("Admin") then "/dashboard/admin"
               else if role == Some("Creator") then "/dashboard/creator"
               else "/dashboard/user", None)
    else Render
  }

  /** Whatever the guard redirects to is where the role redirect would have
      sent the same visitor. */
  lemma RedirectAgreesWithRoleRedirect(user: Option<AuthUser>, pathname: string, allowedRoles: seq<string>)
    ensures Decide(false, user, pathname, allowedRoles).Redirect? ==>
      Decide(false, user, pathname, allowedRoles).to == RoleRedirect.Destination(user)
  {
  }

  /** Listing more roles on a route that already lists some never turns an
      admitted visitor away. (An empty list is the exception: it admits
      everyone, and any non-empty list admits fewer.) */
  lemma MoreRolesStillRender(loading: bool, user: Option<AuthUser>, pathname: string, allowedRoles: seq<string>, extra: seq<string>)
    requires allowedRoles != [] && Decide(loading, user, pathname, allowedRoles) == Render
    ensures Decide(loading, user, pathname, allowedRoles + extra) == Render
  {
    assert user.value.role.value in allowedRoles + extra;
  }
}

=== FILE: records.dfy ===
/** The records the pages receive from the REST backend and the identity
    provider, restricted to the fields the modelled logic reads. Timestamps are
    integer milliseconds; a text field the backend leaves out reads as "". */
module Records {
  import opened Values

  /** The `winner` object a contest carries once a winner is declared. */
  datatype Winner = Winner(name: Option<string>, email: Option<string>, photo: Option<string>)

  /** A contest as the backend serves it. `winner` and `winnerEmail` are two
      separate fields: the leaderboard and the declare-winner guard read the
      first, the submissions table reads the second. */
  datatype Contest = Contest(
    id: string,
    name: string,
    bannerImage: string,
    description: string,
    entryFee: Option<int>,
    prizeMoney: Option<int>,
    taskDetails: string,
    contentType: string,
    deadline: int,
    status: string,
    winner: Option<Winner>,
    winnerEmail: Option<string>,
    winnerName: Option<string>)

  /** A participant's task submission for one contest. */
  datatype Submission = Submission(
    userName: Option<string>,
    userEmail: Option<string>,
    userPhoto: Option<string>,
    taskLink: string)

  /** The signed-in user as the authentication context exposes it. */
  datatype AuthUser = AuthUser(email: Option<string>, role: Option<string>)

  const Confirmed := "Confirmed"
  const Pending := "Pending"
  const Rejected := "Rejected"
}

=== FILE: role_redirect.dfy ===
/** The role redirect: where a visitor of the dashboard entry point is sent. */
module RoleRedirect {
  import opened Values
  import opened Text
  import opened Records

  const LoginPath := "/login"
  const AdminDashboard := "/dashboard/admin"
  const CreatorDashboard := "/dashboard/creator"
  const UserDashboard := "/dashboard/user"

  /** The dashboard a signed-in user with `role` belongs on: the admin and
      creator dashboards for those exact roles, the user dashboard for any
      other role and for none. */
  function DashboardFor(role: Option<string>): (to: string)
    ensures StartsWith(to, "/dashboard/")
    ensures to == AdminDashboard <==> role == Some("Admin")
    ensures to == CreatorDashboard <==> role == Some("Creator")
    ensures to == UserDashboard <==> role != Some("Admin") && role != Some("Creator")
  {
    if role == Some("Admin") then AdminDashboard
    else if role == Some("Creator") then CreatorDashboard
    else UserDashboard
  }

  /** `RoleRedirect`: the login page without a user, else the user's dashboard. */
  function Destination(user: Option<AuthUser>): (to: string)
    ensures to == LoginPath <==> user.None?
    ensures user.Some? ==>
      && StartsWith(to, "/dashboard/")
      && (to == AdminDashboard <==> user.value.role == Some("Admin"))
      && (to == CreatorDashboard <==> user.value.role == Some("Creator"))
      && (to == UserDashboard <==> user.value.role != Some("Admin") && user.value.role != Some("Creator"))
  {
    if user.None? then LoginPath else DashboardFor(user.value.role)
  }

  /** The dashboard depends on the role only: two users with the same role are
      sent to the same place, and users with different recognised roles are
      sent to different places. */
  lemma DestinationByRole(a: AuthUser, b: AuthUser)
    ensures a.role == b.role ==> Destination(Some(a)) == Destination(Some(b))
    ensures Destination(Some(a)) == Destination(Some(b)) && a.role in {Some("Admin"), Some("Creator")} ==> a.role == b.role
  {
  }
}

=== FILE: see_submissions.dfy ===
/** The creator's submissions page: the table of submissions for one contest,
    which row is the champion, and the declare-winner action with its guard and
    request payload. The confirmation dialog's answer is a parameter. */
module SeeSubmissions {
  import opened Values
  import opened Records

  /** Avatar shown for a submission without a photo. */
  const DefaultAvatar := "https://i.ibb.co/mR79Y6B/user.png"

  /** The body of the declare-winner request. */
  datatype WinnerPayload = WinnerPayload(contestId: string, winnerName: string, winnerEmail: Option<string>, winnerPhoto: string)

  /** What `handleDeclareWinner` does: refuse because a winner exists, stop at
      a cancelled dialog, or send the request. */
  datatype Declaration = AlreadyDecided | Cancelled | Post(payload: WinnerPayload)

  /** `contest?.winner`, the field the declare guard reads: a contest not yet
      loaded has none, and a contest the backend has recorded a declaration
      on has one. */
  function HasWinner(contest: Option<Contest>): (decided: bool)
    ensures contest.None? ==> !decided
    ensures forall c, p :: contest == Some(Recorded(c, p)) ==> decided
  {
    contest.Some? && contest.value.winner.Some?
  }

  /** `contest?.winnerEmail`, the field the table reads. */
  function WinnerEmailOf(contest: Option<Contest>): Option<string>
  {
    if contest.Some? then contest.value.winnerEmail else None
  }

  /** `handleDeclareWinner(submission)` given the dialog's answer `confirmed`.
      A request goes out only when no winner is recorded and the dialog was
      confirmed; it names the submitter, with "Unknown" for a missing name and
      "" for a missing photo. */
  function DeclareWinner(contest: Option<Contest>, contestId: string, s: Submission, confirmed: bool): (d: Declaration)
    ensures d == AlreadyDecided <==> HasWinner(contest)
    ensures d == Cancelled <==> !HasWinner(contest) && !confirmed
    ensures d.Post? ==>
      && d.payload.contestId == contestId
      && d.payload.winnerEmail == s.userEmail
      && (Truthy(s.userName) ==> d.payload.winnerName == s.userName.value)
      && (!Truthy(s.userName) ==> d.payload.winnerName == "Unknown")
      && (Truthy(s.userPhoto) ==> d.payload.winnerPhoto == s.userPhoto.value)
      && (!Truthy(s.userPhoto) ==> d.payload.winnerPhoto == "")
  {
    if HasWinner(contest) then AlreadyDecided
    else if !confirmed then Cancelled
    else Post(WinnerPayload(contestId, Or(s.userName, "Unknown"), s.userEmail, Or(s.userPhoto, "")))
  }

  /** The contest as the backend would return it after recording `p`. The
      backend is not part of this model; this is the record the page expects
      to read back. */
  function Recorded(c: Contest, p: WinnerPayload): Contest
  {
    c.(winner := Some(Winner(Some(p.winnerName), p.winnerEmail, Some(p.winnerPhoto))),
       winnerEmail := p.winnerEmail, winnerName := Some(p.winnerName))
  }

  /** `isWinner` as written: `contest?.winnerEmail === s.userEmail`. Both
      sides may be absent (`undefined`), and then they compare equal. `None`
      is read here as an absent field, not a stored `null`. */
  function IsWinnerAsWritten(contest: Option<Contest>, s: Submission): (crowned: bool)
    ensures crowned && Truthy(s.userEmail) ==> Truthy(WinnerEmailOf(contest)) && WinnerEmailOf(contest).value == s.userEmail.value
    ensures crowned && !Truthy(WinnerEmailOf(contest)) ==> !Truthy(s.userEmail)
    ensures Truthy(WinnerEmailOf(contest)) && Truthy(s.userEmail) && WinnerEmailOf(contest).value == s.userEmail.value ==> crowned
  {
    WinnerEmailOf(contest) == s.userEmail
  }

  /** A submission without an email field is shown as the champion of a
      contest that has no winner email field yet. */
  lemma EmailLessSubmissionCrowned(c: Contest, taskLink: string)
    requires c.winnerEmail.None?
    ensures IsWinnerAsWritten(Some(c), Submission(None, None, None, taskLink))
    ensures !Truthy(WinnerEmailOf(Some(c)))
  {
  }

  /** `isWinner` as intended: a winner email is recorded and it is the
      submission's email. */
  predicate IsWinner(contest: Option<Contest>, s: Submission)
  {
    Truthy(WinnerEmailOf(contest)) && WinnerEmailOf(contest) == s.userEmail
  }

  /** The two readings agree whenever a winner email is recorded, and the
      intended one never crowns anyone before that. */
  lemma IsWinnerCorrected(contest: Option<Contest>, s: Submission)
    ensures Truthy(WinnerEmailOf(contest)) ==> (IsWinner(contest, s) <==> IsWinnerAsWritten(contest, s))
    ensures !Truthy(WinnerEmailOf(contest)) ==> !IsWinner(contest, s)
  {
  }

  /** The action cell of a row. */
  datatype Action = Champion | DeclareDisabled | DeclareEnabled

  /** One table row: its displayed rank, name and avatar, and its action cell. */
  datatype Row = Row(rank: nat, name: string, photo: string, email: Option<string>, action: Action)

  /** The row for the submission at position `index`. */
  function MakeRow(contest: Option<Contest>, s: Submission, index: nat): (r: Row)
    ensures r.rank == index + 1
    ensures r.email == s.userEmail
    ensures r.action == Champion <==> IsWinner(contest, s)
    ensures r.action == DeclareEnabled <==> !IsWinner(contest, s) && !Truthy(WinnerEmailOf(contest))
    ensures r.name == Or(s.userName, "Secret Agent") && r.photo == Or(s.userPhoto, DefaultAvatar)
  {
    var action :=
      if IsWinner(contest, s) then Champion
      else if Truthy(WinnerEmailOf(contest)) then DeclareDisabled
      else DeclareEnabled;
    Row(index + 1, Or(s.userName, "Secret Agent"), Or(s.userPhoto, DefaultAvatar), s.userEmail, action)
  }

  /** The row exactly as the page builds it, with `isWinner` as written. */
  function MakeRowAsWritten(contest: Option<Contest>, s: Submission, index: nat): (r: Row)
    ensures r.rank == index + 1
    ensures r.email == s.userEmail
    ensures r.action == Champion <==> IsWinnerAsWritten(contest, s)
    ensures r.action == DeclareEnabled <==> !IsWinnerAsWritten(contest, s) && !Truthy(WinnerEmailOf(contest))
    ensures r.name == Or(s.userName, "Secret Agent") && r.photo == Or(s.userPhoto, DefaultAvatar)
  {
    var action :=
      if IsWinnerAsWritten(contest, s) then Champion
      else if Truthy(WinnerEmailOf(contest)) then DeclareDisabled
      else DeclareEnabled;
    Row(index + 1, Or(s.userName, "Secret Agent"), Or(s.userPhoto, DefaultAvatar), s.userEmail, action)
  }

  /** Once a winner email is recorded the page's rows are the corrected rows;
      before that, they differ exactly on the submissions whose email equals
      the contest's missing or empty one, which the page crowns. */
  lemma MakeRowAsWrittenAgrees(contest: Option<Contest>, s: Submission, index: nat)
    ensures Truthy(WinnerEmailOf(contest)) ==> MakeRowAsWritten(contest, s, index) == MakeRow(contest, s, index)
    ensures !Truthy(WinnerEmailOf(contest)) ==>
      (MakeRowAsWritten(contest, s, index) != MakeRow(contest, s, index) <==> s.userEmail == WinnerEmailOf(contest))
  {
  }

  /** Two concrete rows the page crowns and the corrected rule does not: an
      email-less submission to a contest without a winner email field, and an
      empty email against an empty winner email. */
  lemma EmailLessRowDiffers(c: Contest, taskLink: string)
    requires c.winnerEmail.None?
    ensures var s := Submission(None, None, None, taskLink);
      MakeRowAsWritten(Some(c), s, 0).action == Champion && MakeRow(Some(c), s, 0).action == DeclareEnabled
    ensures var s := Submission(None, Some(""), None, taskLink);
      var c' := c.(winnerEmail := Some(""));
      MakeRowAsWritten(Some(c'), s, 0).action == Champion && MakeRow(Some(c'), s, 0).action == DeclareEnabled
  {
  }

  /** `submissions.map((s, index) => ...)`, starting at position `from`. */
  function RowsFrom(contest: Option<Contest>, subs: seq<Submission>, from: nat): (rows: seq<Row>)
    ensures |rows| == |subs|
    ensures forall i :: 0 <= i < |subs| ==> rows[i] == MakeRow(contest, subs[i], from + i)
  {
    if subs == [] then [] else [MakeRow(contest, subs[0], from)] + RowsFrom(contest, subs[1..], from + 1)
  }

  /** The rows of the submissions table, ranked from 1. */
  function Rows(contest: Option<Contest>, subs: seq<Submission>): (rows: seq<Row>)
    ensures |rows| == |subs|
    ensures forall i :: 0 <= i < |subs| ==> rows[i].rank == i + 1 && rows[i].email == subs[i].userEmail
    ensures forall i :: 0 <= i < |subs| ==> rows[i] == MakeRow(contest, subs[i], i)
  {
    RowsFrom(contest, subs, 0)
  }

  /** Once a winner email is recorded no row offers an enabled Declare button,
      and the champion rows are exactly the submissions with that email. */
  lemma DecidedTableIsClosed(contest: Option<Contest>, subs: seq<Submission>)
    requires Truthy(WinnerEmailOf(contest))
    ensures forall r :: r in Rows(contest, subs) ==> r.action != DeclareEnabled
    ensures forall i :: 0 <= i < |subs| ==>
      (Rows(contest, subs)[i].action == Champion <==> subs[i].userEmail == WinnerEmailOf(contest))
  {
    var rows := Rows(contest, subs);
    forall r | r in rows ensures r.action != DeclareEnabled {
      var i :| 0 <= i < |rows| && rows[i] == r;
      assert r == MakeRow(contest, subs[i], i);
    }
  }

  /** Round trip with the backend: once it records a declaration for a
      submission with an email, that submission's row is the champion, every
      other Declare button is disabled, and declaring again is refused. */
  lemma DeclarationSettles(c: Contest, contestId: string, subs: seq<Submission>, i: nat, again: Submission, confirmed: bool)
    requires i < |subs| && Truthy(subs[i].userEmail)
    requires DeclareWinner(Some(c), contestId, subs[i], true).Post?
    ensures var after := Some(Recorded(c, DeclareWinner(Some(c), contestId, subs[i], true).payload));
      && Rows(after, subs)[i].action == Champion
      && (forall r :: r in Rows(after, subs) ==> r.action != DeclareEnabled)
      && DeclareWinner(after, contestId, again, confirmed) == AlreadyDecided
  {
    var after := Some(Recorded(c, DeclareWinner(Some(c), contestId, subs[i], true).payload));
    assert WinnerEmailOf(after) == subs[i].userEmail;
    DecidedTableIsClosed(after, subs);
  }
}

=== FILE: seqs.dfy ===
/** Sequence operations the pages use through `Array.prototype.filter`,
    `find` and `new Set(...)`, with the facts the other modules need. */
module Seqs {
  import opened Values

  /** No element occurs twice. */
  predicate Distinct<T(==)>(s: seq<T>)
  {
    forall i, j :: 0 <= i < j < |s| ==> s[i] != s[j]
  }

  /** `a` is `b` with some elements removed and the rest kept in order. */
  predicate IsSubsequence<T(==)>(a: seq<T>, b: seq<T>)
    decreases |b|
  {
    || a == []
    || (b != [] && ((a[0] == b[0] && IsSubsequence(a[1..], b[1..])) || IsSubsequence(a, b[1..])))
  }

  /** `s.filter(p)`: exactly the elements satisfying `p`, each as often as in
      `s`, in their original order. */
  function Filter<T(==,!new)>(s: seq<T>, p: T -> bool): (r: seq<T>)
    ensures |r| <= |s|
    ensures forall x :: x in r <==> x in s && p(x)
    ensures IsSubsequence(r, s)
    ensures forall x :: multiset(r)[x] == if p(x) then multiset(s)[x] else 0
  {
    if s == [] then []
    else
      var rest := Filter(s[1..], p);
      assert s == [s[0]] + s[1..];
      assert multiset(s) == multiset([s[0]]) + multiset(s[1..]);
      var r := (if p(s[0]) then [s[0]] else []) + rest;
      assert multiset(r) == multiset(if p(s[0]) then [s[0]] else []) + multiset(rest);
      assert p(s[0]) ==> r[1..] == rest;
      assert !p(s[0]) ==> r == rest;
      r
  }

  /** Filtering distributes over concatenation: what is kept from the front part
      comes first, in order. */
  lemma {:induction false} FilterConcat<T(!new)>(a: seq<T>, b: seq<T>, p: T -> bool)
    ensures Filter(a + b, p) == Filter(a, p) + Filter(b, p)
  {
    if a == [] {
      assert a + b == b;
    } else {
      var head := if p(a[0]) then [a[0]] else [];
      calc {
        Filter(a + b, p);
        { assert (a + b)[0] == a[0] && (a + b)[1..] == a[1..] + b; }
        head + Filter(a[1..] + b, p);
        { FilterConcat(a[1..], b, p); }
        head + (Filter(a[1..], p) + Filter(b, p));
        (head + Filter(a[1..], p)) + Filter(b, p);
        Filter(a, p) + Filter(b, p);
      }
    }
  }

  /** Filtering a second time with the same test keeps everything. */
  lemma {:induction false} FilterTwice<T(!new)>(s: seq<T>, p: T -> bool)
    ensures Filter(Filter(s, p), p) == Filter(s, p)
  {
    if s != [] {
      assert s == [s[0]] + s[1..];
      FilterConcat([s[0]], s[1..], p);
      FilterTwice(s[1..], p);
      FilterConcat(Filter([s[0]], p), Filter(s[1..], p), p);
    }
  }

  /** `s.find(p)`: the first element satisfying `p`, or absent when none does. */
  function Find<T>(s: seq<T>, p: T -> bool): (r: Option<T>)
    ensures r.None? <==> forall i :: 0 <= i < |s| ==> !p(s[i])
    ensures r.Some? ==> exists i :: 0 <= i < |s| && s[i] == r.value && p(s[i]) && forall j :: 0 <= j < i ==> !p(s[j])
  {
    if s == [] then None
    else if p(s[0]) then Some(s[0])
    else
      var r := Find(s[1..], p);
      assert r.Some? ==> exists i :: 0 <= i < |s| && s[i] == r.value && p(s[i]) && forall j :: 0 <= j < i ==> !p(s[j]) by {
        if r.Some? {
          var i :| 0 <= i < |s[1..]| && s[1..][i] == r.value && p(s[1..][i]) && forall j :: 0 <= j < i ==> !p(s[1..][j]);
          assert s[i + 1] == r.value && forall j :: 0 <= j < i + 1 ==> !p(s[j]);
        }
      }
      r
  }

  /** Position of the first occurrence of `x` in `s`. */
  function IndexOf<T(==)>(s: seq<T>, x: T): (i: nat)
    requires x in s
    ensures i < |s| && s[i] == x && x !in s[..i]
  {
    if s[0] == x then 0 else 1 + IndexOf(s[1..], x)
  }

  lemma IndexOfPrefix<T>(s: seq<T>, k: nat, x: T)
    requires k <= |s| && x in s[..k]
    ensures IndexOf(s, x) == IndexOf(s[..k], x)
  {
    var j := IndexOf(s[..k], x);
    assert s[..k][j] == s[j];
    assert s[..k][..j] == s[..j];
  }

  /** `[...new Set(s)]`: every value of `s` once, in order of first appearance. */
  function Dedup<T(==,!new)>(s: seq<T>): (r: seq<T>)
    ensures Distinct(r)
    ensures forall x :: x in r <==> x in s
    ensures |r| <= |s|
    ensures forall i, j :: 0 <= i < j < |r| ==> IndexOf(s, r[i]) < IndexOf(s, r[j])
  {
    if s == [] then []
    else
      var init := s[..|s| - 1];
      var last := s[|s| - 1];
      var d := Dedup(init);
      assert s == init + [last];
      assert forall x | x in d :: IndexOf(s, x) == IndexOf(init, x) by {
        forall x | x in d ensures IndexOf(s, x) == IndexOf(init, x) {
          IndexOfPrefix(s, |s| - 1, x);
        }
      }
      if last in d then d
      else
        assert IndexOf(s, last) == |s| - 1 by {
          assert last !in init;
        }
        d + [last]
  }

  /** Sum over the values in `d` of how often each occurs in `s`. */
  function CountAll<T(==)>(d: seq<T>, s: seq<T>): nat
  {
    if d == [] then 0 else multiset(s)[d[0]] + CountAll(d[1..], s)
  }

  lemma {:induction false} CountAllEmpty<T>(d: seq<T>)
    ensures CountAll(d, []) == 0
  {
    if d != [] {
      CountAllEmpty(d[1..]);
    }
  }

  lemma {:induction false} CountAllSnoc<T>(d: seq<T>, s: seq<T>, x: T)
    ensures CountAll(d, s + [x]) == CountAll(d, s) + multiset(d)[x]
  {
    if d != [] {
      CountAllSnoc(d[1..], s, x);
      assert d == [d[0]] + d[1..];
    }
  }

  lemma {:induction false} DistinctOccurrence<T>(d: seq<T>, x: T)
    requires Distinct(d)
    ensures multiset(d)[x] == if x in d then 1 else 0
  {
    if d != [] {
      assert d == [d[0]] + d[1..];
      DistinctOccurrence(d[1..], x);
    }
  }

  /** Counting the occurrences in `s` of each value of a duplicate-free `d`
      that covers `s` accounts for every element of `s` exactly once. */
  lemma {:induction false} CountAllCovers<T>(d: seq<T>, s: seq<T>)
    requires Distinct(d)
    requires forall x :: x in s ==> x in d
    ensures CountAll(d, s) == |s|
  {
    if s == [] {
      CountAllEmpty(d);
    } else {
      var init, last := s[..|s| - 1], s[|s| - 1];
      assert s == init + [last];
      CountAllCovers(d, init);
      CountAllSnoc(d, init, last);
      DistinctOccurrence(d, last);
    }
  }
}

=== FILE: text.dfy ===
/** The few string operations of JavaScript the pages use: `trim`,
    `startsWith`, `split(sep)[0]`, `slice(0, n)` and number-to-text conversion. */
module Text {

  /** The characters `String.prototype.trim` removes: the ECMAScript
      WhiteSpace and LineTerminator code points. */
  predicate IsWhitespace(c: char)
  {
    var n := c as int;
    || 0x09 <= n <= 0x0D || n == 0x20 || n == 0xA0 || n == 0x1680
    || 0x2000 <= n <= 0x200A || n == 0x2028 || n == 0x2029 || n == 0x202F
    || n == 0x205F || n == 0x3000 || n == 0xFEFF
  }

  predicate AllWhitespace(s: string)
  {
    forall i :: 0 <= i < |s| ==> IsWhitespace(s[i])
  }

  /** How many whitespace characters open `s`. */
  function LeadingWhitespace(s: string): (n: nat)
    ensures n <= |s|
    ensures forall i :: 0 <= i < n ==> IsWhitespace(s[i])
    ensures n < |s| ==> !IsWhitespace(s[n])
  {
    if s != [] && IsWhitespace(s[0]) then 1 + LeadingWhitespace(s[1..]) else 0
  }

  /** How many whitespace characters close `s`. */
  function TrailingWhitespace(s: string): (n: nat)
    ensures n <= |s|
    ensures forall i :: |s| - n <= i < |s| ==> IsWhitespace(s[i])
    ensures n < |s| ==> !IsWhitespace(s[|s| - 1 - n])
  {
    if s != [] && IsWhitespace(s[|s| - 1]) then 1 + TrailingWhitespace(s[..|s| - 1]) else 0
  }

  /** `s.trim()`: `r` is the slice of `s` left after dropping the whitespace at
      both ends, it neither starts nor ends with whitespace, and it is empty
      exactly when `s` is all whitespace. */
  function Trim(s: string): (r: string)
    ensures var k := LeadingWhitespace(s);
      && k + |r| <= |s| && r == s[k..k + |r|]
      && (forall i :: 0 <= i < k ==> IsWhitespace(s[i]))
      && (forall i :: k + |r| <= i < |s| ==> IsWhitespace(s[i]))
    ensures r != [] ==> !IsWhitespace(r[0]) && !IsWhitespace(r[|r| - 1])
    ensures r == [] <==> AllWhitespace(s)
  {
    var k := LeadingWhitespace(s);
    if k == |s| then []
    else
      var t := s[k..];
      var n := TrailingWhitespace(t);
      assert n < |t| by { assert !IsWhitespace(t[0]); }
      assert forall i :: k + |t| - n <= i < |s| ==> IsWhitespace(s[i]) by {
        forall i | k + |t| - n <= i < |s| ensures IsWhitespace(s[i]) {
          assert s[i] == t[i - k];
        }
      }
      s[k..|s| - n]
  }

  /** `s.startsWith(p)`, which is also what the pattern `/^p/` tests for a literal `p`. */
  predicate StartsWith(s: string, p: string)
  {
    |p| <= |s| && s[..|p|] == p
  }

  /** `s.split(sep)[0]`: the longest prefix of `s` without `sep`. */
  function BeforeFirst(s: string, sep: char): (r: string)
    ensures |r| <= |s| && r == s[..|r|]
    ensures sep !in r
    ensures |r| < |s| ==> s[|r|] == sep
  {
    if s == [] || s[0] == sep then [] else [s[0]] + BeforeFirst(s[1..], sep)
  }

  /** `s.slice(0, n)` for `n >= 0`. */
  function Prefix(s: string, n: nat): (r: string)
    ensures |r| == if |s| < n then |s| else n
    ensures r == s[..|r|]
  {
    if |s| <= n then s else s[..n]
  }

  predicate IsDigit(c: char)
  {
    '0' as int <= c as int <= '9' as int
  }

  function DigitChar(d: nat): (c: char)
    requires d < 10
    ensures IsDigit(c) && c as int - '0' as int == d
  {
    ('0' as int + d) as char
  }

  /** A non-empty run of decimal digits. */
  predicate IsDigits(s: string)
  {
    |s| >= 1 && forall i :: 0 <= i < |s| ==> IsDigit(s[i])
  }

  /** The number a string of decimal digits denotes. */
  function DigitsValue(s: string): nat
    requires forall i :: 0 <= i < |s| ==> IsDigit(s[i])
  {
    if s == [] then 0
    else
      assert IsDigit(s[|s| - 1]);
      DigitsValue(s[..|s| - 1]) * 10 + (s[|s| - 1] as int - '0' as int)
  }

  /** A non-negative integer in template-literal form `${n}`: decimal digits
      without leading zeros that read back as `n`. */
  function NatToString(n: nat): (r: string)
    ensures |r| >= 1
    ensures forall i :: 0 <= i < |r| ==> IsDigit(r[i])
    ensures r[0] == '0' ==> r == "0"
    ensures DigitsValue(r) == n
  {
    if n < 10 then [DigitChar(n)]
    else
      var r := NatToString(n / 10) + [DigitChar(n % 10)];
      assert r[..|r| - 1] == NatToString(n / 10);
      r
  }
}

=== FILE: values.dfy ===
/** JavaScript values the pages read from fetched JSON: a field may be absent
    (null or undefined), and a string is "truthy" only when present and non-empty. */
module Values {

  /** A value that may be absent: `None` stands for both null and undefined. */
  datatype Option<+T> = None | Some(value: T)

  /** JavaScript truthiness of an optional string: null, undefined and "" are falsy. */
  predicate Truthy(o: Option<string>)
  {
    o.Some? && o.value != ""
  }

  /** The JavaScript expression `o || fallback` for an optional string. */
  function Or(o: Option<string>, fallback: string): string
  {
    if Truthy(o) then o.value else fallback
  }
}
